=== FILE: README.md ===
# Text layout and text field of the storyboard editor

This project models two parts of the editor's user interface.

- **Text layout**: a text cut into lines becomes placed glyphs. Each glyph gets a line, an
  x offset and a character index. From that, the layout answers three questions: which glyph
  has a given index, which character index lies under a point, and which rectangle per line
  covers a range of indices.
- **Text field**: the editable text field keeps:
  - a value;
  - an anchor (`selectionStart`) and a caret (`cursorPosition`);
  - a focus flag and a "commit pending" flag;
  - whether line breaks are accepted and whether Enter commits.

  It reacts to keys, typed characters, clicks and drags, and fires "value changed" and
  "value committed" notifications.

Both source files change their objects in place, so the model keeps their shape:

- `TextLayoutGlyph`, `TextLayoutLine`, `TextLayout` and `Textbox` are classes with the
  source's fields and methods.
- Every method is proved against a specification on values:
  - For the layout, `View()` reads the lines as `LineView` values. The specification functions
    are `Flat`, `CharacterIndexAt` and `TextBounds`.
  - For the text field, `State()` reads the widget as a `Field` value. Each method ensures
    `State() == old(State()).Transition(...)`.
- What the source promises is proved as lemmas about those functions.

Modules:

- `Wrappers` (`wrappers.dfy`): `Option`, `Result`, `Min` and `Max`.
- `Text` (`text_layout.dfy`): the layout.
  - Glyph widths and heights are `nat`. Line widths and heights, and the layout size, are
    `int`, like the source's `int` fields.
  - Positions are exact `real`s, because centring halves widths.
  - A font maps every character to a glyph (width, height, empty or not) and has a line height.
- `UserInterface` (`textbox.dfy`): the text field.
  - Everything the handlers do to the outside world is appended to an `events` trace, in order:
    - its two notifications;
    - requests to take or release the keyboard focus;
    - text put on the clipboard.
  - What a handler reads from outside is a parameter. That covers the modifier keys, the
    clipboard text, and the indices the content label reports above, below or under the pointer.

## Model

| member | source | states |
|---|---|---|
| Text.HasVisibleSomewhere | editor/Graphics/Text/TextLayout.cs:163-165 | a line's `advance` flag, once set by a non-empty glyph, stays set: it holds exactly when some glyph added so far is non-empty |
| Text.Appended | editor/Graphics/Text/TextLayout.cs:163-170 | adding one glyph sets `advance` when the glyph is non-empty, grows the width by the glyph's width exactly when the line advances, and makes the height the larger of the two |
| Text.EmptyGlyphsKeepZeroWidth | editor/Graphics/Text/TextLayout.cs:163-168 | a line that does not advance on empty glyphs and has received only empty glyphs keeps width 0 |
| Text.AdvancingLineWidth | editor/Graphics/Text/TextLayout.cs:155-168 | a line that advances from the start (the first line) is as wide as the sum of its glyph widths |
| Text.AdvanceWidthMonotone | editor/Graphics/Text/TextLayout.cs:167-168 | the x offsets of the glyphs of a line never decrease |
| Text.AdvancingGap | editor/Graphics/Text/TextLayout.cs:165-168 | once a line advances, each glyph ends at or before the x offset of every later glyph, so glyphs do not overlap |
| Text.MaxHeightIsMaximum | editor/Graphics/Text/TextLayout.cs:169 | a line's height is at least every glyph's height and equal to one of them; 0 without glyphs |
| Text.AlignedLineFits | editor/Graphics/Text/TextLayout.cs:148-153 | left-aligned lines start at 0, right-aligned lines end at the layout width, others have equal margins, and a line no wider than the layout fits inside it |
| Text.FlatAt | editor/Graphics/Text/TextLayout.cs:21-29 | glyph j of line k is glyph number (glyphs of the earlier lines + j) of the whole layout |
| Text.Locate | editor/Graphics/Text/TextLayout.cs:76-85 | every position of the whole layout lies in some line k at some offset j |
| Text.FlatNumbering | editor/Graphics/Text/TextLayout.cs:48-55 | in a consecutively numbered layout, the glyph at position i carries index i |
| Text.HitFromFirstRight | editor/Graphics/Text/TextLayout.cs:93-101 | the scan of a matching line stops at the first glyph whose midpoint lies right of x, or at the last glyph when there is none |
| Text.IndexFromRange | editor/Graphics/Text/TextLayout.cs:87-104 | the index found is between one before the first glyph and the last glyph |
| Text.IndexBelowAllLines | editor/Graphics/Text/TextLayout.cs:100-103 | a point below every line gives the index of the last glyph |
| Text.IndexInFirstMatchingLine | editor/Graphics/Text/TextLayout.cs:89-101 | the first line whose bottom lies below the point decides the result: the count of glyphs before it plus the glyph hit in it |
| Text.CharacterIndexAtIsGlyphIndex | editor/Graphics/Text/TextLayout.cs:87-104 | when the first line has a glyph the result is a valid glyph index, never -1 |
| Text.RoundTrip | editor/Graphics/Text/TextLayout.cs:87-104 | the character index at a glyph's own position is that glyph's index (positive width and line height, glyphs before it not overlapping it) |
| Text.HitAtOwnPosition | editor/Graphics/Text/TextLayout.cs:93-99 | within a line, the scan from any earlier glyph stops exactly at the glyph whose position is given |
| Text.HeightAboveGrows | editor/Graphics/Text/TextLayout.cs:53-59 | the tops of the lines never decrease down the layout |
| Text.BoundsAtMostOncePerLine | editor/Graphics/Text/TextLayout.cs:106-128 | the callback runs at most once per line |
| Text.BoundsFromStartCoverEveryLine | editor/Graphics/Text/TextLayout.cs:114-126 | a range starting at or before the first index gives one rectangle per line that has glyphs |
| Text.BoundsPastTheEnd | editor/Graphics/Text/TextLayout.cs:114-126 | a range starting past the last glyph gives no rectangle |
| Text.LineBoundsExactly | editor/Graphics/Text/TextLayout.cs:111-126 | a line gives a rectangle exactly when one of its glyphs has index at least start; the top-left is the position of the first such glyph, and the bottom-right is the far corner of the last glyph before end, or the origin when there is none |
| Text.WidthOfIsWidest | editor/Graphics/Text/TextLayout.cs:58 | the layout width is at least every line's width and equal to one of them |
| Text.TextLayoutGlyph.constructor | editor/Graphics/Text/TextLayout.cs:196-202 | stores the line, glyph, index and x offset |
| Text.TextLayoutGlyph.Position | editor/Graphics/Text/TextLayout.cs:187-194 | a glyph sits at its line's position shifted right by its x offset |
| Text.TextLayoutLine.Position | editor/Graphics/Text/TextLayout.cs:148-153 | the line's top is its y; its left is 0, flush right with the layout width, or centred, by alignment |
| Text.TextLayoutLine.constructor | editor/Graphics/Text/TextLayout.cs:155-161 | a new line is empty, with width and height 0 and `advance` as requested |
| Text.TextLayoutLine.Add | editor/Graphics/Text/TextLayout.cs:163-170 | appends a placed glyph at the old width with the given index, sets `advance` on a non-empty glyph, grows the width when advancing, keeps the height the maximum, and keeps the line's invariant (x offsets are the advance widths of the glyphs before) |
| Text.TextLayoutLine.GetGlyph | editor/Graphics/Text/TextLayout.cs:172-173 | the glyph at the index when it lies inside the line, the out-of-range error otherwise |
| Text.TextLayout.constructor | editor/Graphics/Text/TextLayout.cs:42-74 | the layout holds one line per text line (one empty line for an empty text), glyphs numbered consecutively, one terminator in all, so glyph count = characters + 1 |
| Text.TextLayout.LayOutText | editor/Graphics/Text/TextLayout.cs:46-66 | non-empty text: every line built from its text line at the stacked height; the terminator goes on the last line; the size is the widest line by the stacked heights, plus a line height when the last line is empty |
| Text.TextLayout.LayOutLines | editor/Graphics/Text/TextLayout.cs:51-60 | after the loop over the first n text lines: n lines built, running index = their characters, width = widest, height = sum of heights |
| Text.TextLayout.LayOutLine | editor/Graphics/Text/TextLayout.cs:53-55 | a fresh line holds one glyph per character, numbered from the running index |
| Text.TextLayout.AddTerminator | editor/Graphics/Text/TextLayout.cs:61-63 | the last line gets the empty terminator glyph with the next index; the other lines stay as built |
| Text.TextLayout.LayOutEmpty | editor/Graphics/Text/TextLayout.cs:67-73 | empty text: one line holding only the terminator |
| Text.TextLayout.BuiltIsNumbered | editor/Graphics/Text/TextLayout.cs:48-63 | a built layout is valid and has as many glyphs as characters, plus one |
| Text.TextLayout.BuiltViewNumbered | editor/Graphics/Text/TextLayout.cs:48-63 | lines as long as their text lines (the last one plus the terminator), numbered by running index, give the glyph at position i the index i |
| Text.TextLayout.BuiltGlyphs | editor/Graphics/Text/TextLayout.cs:51-63 | each line holds the font's glyph for each character of its text line, and the last line ends in the terminator |
| Text.TextLayout.BuiltEmpty | editor/Graphics/Text/TextLayout.cs:67-73 | the empty text gives one line with one glyph, the terminator with index 0, and size (0, line height) |
| Text.TextLayout.BuiltIsStacked | editor/Graphics/Text/TextLayout.cs:53-59 | every line starts where the line above it ends |
| Text.TextLayout.HeightsAbove | editor/Graphics/Text/TextLayout.cs:53-59 | line k's top is the sum of the heights of the text lines above it |
| Text.TextLayout.BuiltWidest | editor/Graphics/Text/TextLayout.cs:58-65 | no line is wider than the layout and one line is exactly as wide |
| Text.TextLayout.GlyphAgrees | editor/Graphics/Text/TextLayout.cs:187-194 | a placed glyph object's position is the position the value view gives it |
| Text.TextLayout.GetGlyph | editor/Graphics/Text/TextLayout.cs:76-85 | an index inside the layout gives the glyph at that position, which carries that index; a negative index gives the argument error, one past the end the index error |
| Text.TextLayout.GetCharacterIndexAt | editor/Graphics/Text/TextLayout.cs:87-104 | the loop computes `CharacterIndexAt` of the layout's lines |
| Text.TextLayout.ScanLine | editor/Graphics/Text/TextLayout.cs:92-101 | the inner loop over one line stops at the hit glyph of a matching line, or counts past all the line's glyphs |
| Text.TextLayout.ForTextBounds | editor/Graphics/Text/TextLayout.cs:106-128 | the rectangles passed to the callback, in order, are `TextBounds` of the layout's lines |
| Text.TextLayout.LineBox | editor/Graphics/Text/TextLayout.cs:111-126 | the inner loop over one line yields that line's rectangle, if any, and moves the running index past its glyphs |
| UserInterface.CountSnoc | editor/UserInterface/Textbox.cs:73-74 | firing one more notification counts it once more |
| UserInterface.RemoveNewlinesRemovesAll | editor/UserInterface/Textbox.cs:101-102 | removing line breaks leaves none and keeps every other character, as often as it occurs |
| UserInterface.RemoveNewlinesAppend | editor/UserInterface/Textbox.cs:101-102 | removing line breaks from two joined texts removes them from each, so the kept characters stay in order |
| UserInterface.RemoveNewlinesKeeps | editor/UserInterface/Textbox.cs:101-102 | a text comes back unchanged exactly when it has no line break |
| UserInterface.RemoveNewlinesIdempotent | editor/UserInterface/Textbox.cs:183-184 | removing line breaks twice is removing them once |
| UserInterface.Field.SelectionLeft | editor/UserInterface/Textbox.cs:25 | the smaller of anchor and caret |
| UserInterface.Field.SelectionRight | editor/UserInterface/Textbox.cs:36 | the larger of anchor and caret |
| UserInterface.Field.SelectionLength | editor/UserInterface/Textbox.cs:45 | the distance between the edges |
| UserInterface.SelectionEdges | editor/UserInterface/Textbox.cs:23-45 | left <= right, the two edges are the anchor and the caret, and the length is 0 exactly when they coincide |
| UserInterface.SetSelectionLeft | editor/UserInterface/Textbox.cs:26-32 | for any index, the new field is the old one with only the anchor set to it when the anchor is the smaller index, and with only the caret set otherwise; an index at most the right edge becomes the left edge |
| UserInterface.SetSelectionRight | editor/UserInterface/Textbox.cs:37-43 | for any index, the new field is the old one with only the anchor set to it when the anchor is the larger index, and with only the caret set otherwise; an index at least the left edge becomes the right edge |
| UserInterface.StoreSilentClamps | editor/UserInterface/Textbox.cs:83-90 | null is stored as empty; nothing fires; focus, pending commit and both flags are unchanged; indices that fit are kept, others become the length; validity is kept |
| UserInterface.AssignNotifies | editor/UserInterface/Textbox.cs:64-76 | an equal value does nothing; a different one is stored exactly as the silent store would, appends exactly the change notification and then, without focus, the commit; with focus the commit is left pending |
| UserInterface.AssignNullToEmpty | editor/UserInterface/Textbox.cs:69-73 | null differs from the empty string, so assigning it to an empty field still fires a change |
| UserInterface.AssignKeepsNewlines | editor/UserInterface/Textbox.cs:64-76 | the value setter stores any string as given, line breaks included, even in a single-line field |
| UserInterface.AcceptMultilineOff | editor/UserInterface/Textbox.cs:92-104 | turning multiline off sets the value to the old one with its line breaks removed, fires (change, then commit without focus) exactly when there was one, keeps focus and the Enter flag, and keeps validity |
| UserInterface.AcceptMultilineOn | editor/UserInterface/Textbox.cs:96-99 | turning multiline on changes only the flag |
| UserInterface.ReplacedLeftSurvives | editor/UserInterface/Textbox.cs:337-338 | the left edge survives the clamping the new value does |
| UserInterface.ReplaceSelectionSplices | editor/UserInterface/Textbox.cs:327-339 | the text replaces the selected characters, both indices land right after it, the setter's notifications fire only when the value changed, a focused change leaves the commit pending, focus and both flags are unchanged, and validity is kept |
| UserInterface.BackSpaceAtCaret | editor/UserInterface/Textbox.cs:158-162 | Backspace at a caret removes the character before it and moves the caret back one |
| UserInterface.DeleteAtCaret | editor/UserInterface/Textbox.cs:163-167 | Delete at a caret removes the character after it and keeps the caret |
| UserInterface.DeleteSelection | editor/UserInterface/Textbox.cs:158-167 | with a selection, Backspace and Delete remove exactly the selection |
| UserInterface.DeleteAtEdges | editor/UserInterface/Textbox.cs:158-167 | Backspace at the start and Delete at the end change neither the value nor the notifications |
| UserInterface.TypedCharacter | editor/UserInterface/Textbox.cs:257-262 | a typed character replaces the selection, the caret goes after it, nothing commits, and at a caret a commit becomes pending |
| UserInterface.CopyPutsSelection | editor/UserInterface/Textbox.cs:172-178 | Control+C leaves the field as it is and copies the selection, or the whole value without one |
| UserInterface.PasteInserts | editor/UserInterface/Textbox.cs:179-187 | Control+V inserts the clipboard text in place of the selection, without line breaks in a single-line field |
| UserInterface.CutWithSelection | editor/UserInterface/Textbox.cs:188-197 | Control+X with a selection appends exactly the clipboard write of the selected characters and the change notification, removes them and leaves the caret where they started |
| UserInterface.CutWithoutSelection | editor/UserInterface/Textbox.cs:191-195 | Control+X without a selection first puts the whole value on the clipboard, then empties the field |
| UserInterface.CutKeepsValid | editor/UserInterface/Textbox.cs:188-197 | Control+X keeps validity; without a selection the first event it appends is the clipboard write of the whole value, and the field ends empty |
| UserInterface.ArrowsCollapseSelection | editor/UserInterface/Textbox.cs:198-219 | without Shift, Left collapses a selection to its left edge and Right to its right edge |
| UserInterface.ArrowsMoveCaret | editor/UserInterface/Textbox.cs:198-219 | without Shift, a caret moves one character left or right, staying in the value |
| UserInterface.ShiftArrowsExtend | editor/UserInterface/Textbox.cs:199-203 | with Shift only the caret moves, one character, staying in the value |
| UserInterface.HomeAndEnd | editor/UserInterface/Textbox.cs:230-239 | Home and End put the caret at 0 and at the length; the anchor follows unless Shift is held |
| UserInterface.SelectAllSpans | editor/UserInterface/Textbox.cs:168-171 | select-all runs from 0 over the whole value, and Control+A does it |
| UserInterface.EnterCommitsOrBreaksLine | editor/UserInterface/Textbox.cs:240-249 | Enter inserts a line break exactly when multiline is accepted and Enter does not commit or Shift is held; otherwise it fires a pending commit once when Enter commits, and else changes nothing |
| UserInterface.FocusLossCommits | editor/UserInterface/Textbox.cs:130-141 | a focus change to the current focus does nothing; losing focus with a commit pending fires it once and clears it |
| UserInterface.EscapeReleasesFocus | editor/UserInterface/Textbox.cs:154-157 | Escape changes nothing but appending the focus-release request; once the focus goes, the field is unfocused with nothing pending and a pending commit has fired exactly once |
| UserInterface.UnfocusedIgnoresKeys | editor/UserInterface/Textbox.cs:149 | without focus, keys and characters change nothing |
| UserInterface.ClickThenDragSelects | editor/UserInterface/Textbox.cs:263-272 | a click requests the focus and collapses the selection; a drag then selects from the click to the pointer |
| UserInterface.TypeThenBlur | editor/UserInterface/Textbox.cs:130-141 | typing at the caret of a focused field commits nothing; losing focus then commits exactly once |
| UserInterface.KeyDownKeepsValid | editor/UserInterface/Textbox.cs:147-252 | every key keeps both indices inside the value and a commit pending only under focus |
| UserInterface.EditingKeysKeepValid | editor/UserInterface/Textbox.cs:158-197 | Backspace, Delete, Control+V, Control+X and a line-breaking Enter keep validity |
| UserInterface.OtherKeysKeepValid | editor/UserInterface/Textbox.cs:154-239 | the keys that do not edit keep validity |
| UserInterface.BackSpaceKeepsValid | editor/UserInterface/Textbox.cs:158-162 | Backspace keeps validity |
| UserInterface.DeleteKeepsValid | editor/UserInterface/Textbox.cs:163-167 | Delete keeps validity |
| UserInterface.EditsKeepValid | editor/UserInterface/Textbox.cs:257-262 | typing and replacing the selection keep validity |
| UserInterface.SettersKeepValid | editor/UserInterface/Textbox.cs:64-104 | the value and multiline setters keep validity |
| UserInterface.PointerAndFocusKeepValid | editor/UserInterface/Textbox.cs:263-272 | select-all, focus changes, and clicks or drags inside the value keep validity |
| UserInterface.ValidCanHandle | editor/UserInterface/Textbox.cs:147-252 | in a valid state the selection lies in the value, so no key makes the handler cut outside it |
| UserInterface.Textbox.constructor | editor/UserInterface/Textbox.cs:17-22 | a new field is empty, unfocused, single-line, with Enter committing, and valid |
| UserInterface.Textbox.SelectionLeft | editor/UserInterface/Textbox.cs:25 | the getter agrees with the field state's left edge |
| UserInterface.Textbox.SelectionRight | editor/UserInterface/Textbox.cs:36 | the getter agrees with the field state's right edge |
| UserInterface.Textbox.SelectionLength | editor/UserInterface/Textbox.cs:45 | the getter agrees with the field state's length |
| UserInterface.Textbox.SetSelectionLeft | editor/UserInterface/Textbox.cs:26-32 | the new state is the left-edge setter applied to the old one |
| UserInterface.Textbox.SetSelectionRight | editor/UserInterface/Textbox.cs:37-43 | the new state is the right-edge setter applied to the old one |
| UserInterface.Textbox.SetValueSilent | editor/UserInterface/Textbox.cs:83-90 | the new state is the silent store applied to the old one |
| UserInterface.Textbox.SetValue | editor/UserInterface/Textbox.cs:64-76 | the new state is the value setter applied to the old one |
| UserInterface.Textbox.SetAcceptMultiline | editor/UserInterface/Textbox.cs:92-104 | the new state is the multiline setter applied to the old one |
| UserInterface.Textbox.SelectAll | editor/UserInterface/Textbox.cs:321-325 | the new state selects the whole value |
| UserInterface.Textbox.ReplaceSelection | editor/UserInterface/Textbox.cs:327-339 | the new state is the selection replaced as `ReplaceSelectionSplices` describes |
| UserInterface.Textbox.FocusChange | editor/UserInterface/Textbox.cs:130-141 | the new state is the focus-change handler applied to the old one |
| UserInterface.Textbox.KeyDown | editor/UserInterface/Textbox.cs:147-252 | answers whether the field had focus; the new state is the key-down transition |
| UserInterface.Textbox.PressBackSpace | editor/UserInterface/Textbox.cs:158-162 | the new state is Backspace applied to the old one |
| UserInterface.Textbox.PressDelete | editor/UserInterface/Textbox.cs:163-167 | the new state is Delete applied to the old one |
| UserInterface.Textbox.Copy | editor/UserInterface/Textbox.cs:172-178 | the new state is Control+C applied to the old one |
| UserInterface.Textbox.Cut | editor/UserInterface/Textbox.cs:188-197 | the new state is Control+X applied to the old one |
| UserInterface.Textbox.PressLeft | editor/UserInterface/Textbox.cs:198-208 | the new state is Left applied to the old one |
| UserInterface.Textbox.PressRight | editor/UserInterface/Textbox.cs:209-219 | the new state is Right applied to the old one |
| UserInterface.Textbox.PlaceCaret | editor/UserInterface/Textbox.cs:220-239 | the caret goes to the index, the anchor with it unless Shift is held |
| UserInterface.Textbox.PressEnter | editor/UserInterface/Textbox.cs:240-249 | the new state is Enter applied to the old one |
| UserInterface.Textbox.KeyPress | editor/UserInterface/Textbox.cs:257-262 | answers whether the field had focus; the new state is the typed-character transition |
| UserInterface.Textbox.ClickDown | editor/UserInterface/Textbox.cs:263-268 | answers true; the new state is the click transition |
| UserInterface.Textbox.Drag | editor/UserInterface/Textbox.cs:269-272 | the new state is the drag transition |

## Left out

- Characters of the text are UTF-16 code units, as in the source's strings; a character outside
  the Basic Multilingual Plane is two of them (a surrogate pair), and the model, like the source,
  counts, cuts and moves over units, so splitting a pair is not ruled out. Nothing in the model
  inspects a unit other than the line break, so its proofs hold under that reading.
- Line breaking is not part of this model. `LineBreaker.Split` and its `maxWidth` and trimming
  arguments are left out, and the lines it returns are a parameter of the layout constructor.
  That constructor asks only for what the loop needs: a non-empty text comes with at least one line.
- The font is abstracted to a function from characters to glyphs (width, height, empty or
  not) plus a line height.
- Glyph widths and heights are whole numbers, as the source's `int` fields are. Single-precision
  floating point is modelled as exact reals, so rounding in `* 0.5f` is not captured.
- Integer overflow of the running glyph index and of the widths is not modelled.
- The `Glyphs` and `VisibleGlyphs` enumerators are modelled as the function `Flat` over the
  lines. `VisibleGlyphs` is not modelled separately.
- The `action` callback of `ForTextBounds` is modelled as the sequence of rectangles it is
  called with.
- Text.TextLayout.LayOutText: its last loop round is written after the loop, where it adds the
  terminator. The inner loops are helper methods: `LayOutLines`, `LayOutLine`, `ScanLine` and
  `LineBox`.
- Text.TextLayout.GetCharacterIndexAt: the method ensures only that it computes
  `CharacterIndexAt`. The range of the result and the round trip are lemmas about that function.
- Text.RoundTrip: proved only for glyphs of positive width, on lines of positive height, whose
  earlier glyphs do not overlap them. Other glyphs can share a midpoint with a neighbour.
- The content label's `GetCharacterIndexAbove`, `GetCharacterIndexBelow` and
  `GetCharacterIndexAt` are not part of this model. For clicks, the camera's screen-to-world
  mapping is not modelled either. The indices they return are parameters.
- The keyboard and the clipboard are not modelled. The modifier state and the clipboard text
  are parameters, and clipboard writes are `ClipboardSet` events.
- The Windows clipboard rejects an empty text. Copying or cutting an empty value would fail
  there, but the model records it as `ClipboardSet("")`.
- Setting `KeyboardFocus` on the widget manager is recorded as a `FocusRequested` or
  `FocusReleased` event. The manager's later call of the focus-change handler is the separate
  method `FocusChange`.
- Event handlers with several listeners are modelled as one trace of events.
- Drawing, styles, hovering, `OnKeyUp`, `Layout`, the preferred sizes, `LabelText` and
  `Dispose` are outside the model.
- The content label re-lays out its text when the value changes. That is not modelled; the
  text field works on the value string alone.
- A null string is `Option.None`; only the value setter and `SetValueSilent` accept one.
- UserInterface.Textbox.KeyDown: the source throws when a selection outside the value is
  removed or copied. The method instead requires `CanHandle`, which holds in every valid
  state (`ValidCanHandle`).
- UserInterface.Textbox.ReplaceSelection: requires the selection to lie inside the value, where
  the source would throw.
- UserInterface.Textbox.KeyPress: requires the selection to lie inside the value, where the
  source would throw.
- The public selection setters accept any index, as the source does. Validity is therefore
  proved for every handler but not for those setters used with out-of-range values.
- Behaviour of the code worth knowing (modelled as written):
  - The value setter keeps line breaks in a single-line field (`AssignKeepsNewlines`). Only
    turning `AcceptMultiline` off strips them.
  - Only the last line gets a terminator glyph, so a layout has characters + 1 glyphs, not
    characters + lines.
  - The layout height is the sum of the line heights before the terminator is added, plus a
    line height when the last line is empty.
  - `ForTextBounds` gives a rectangle whose bottom-right is the origin to a line that has a
    glyph with index at least the start index, when every glyph of that line has index at
    least the end index.
  - `GetCharacterIndexAt` returns -1 when the first line has no glyph and the point is above
    its bottom.

=== FILE: text_layout.dfy ===
/** Glyph placement for a run of text that has already been split into visual lines,
    and the index/position queries answered by the resulting layout. */
module Text {
  import opened Wrappers

  /** A point in layout coordinates (single floats in the source, exact reals here). */
  datatype Vec2 = Vec2(x: real, y: real)

  const Origin: Vec2 := Vec2(0.0, 0.0)

  /** An axis-aligned rectangle given by two corners. */
  datatype Box2 = Box2(topLeft: Vec2, bottomRight: Vec2)

  /** The overall extent of a layout; every term that makes it up is an integer. */
  datatype Size = Size(x: int, y: int)

  /** Metrics of one font glyph. `isEmpty` holds for glyphs that draw nothing. */
  datatype FontGlyph = FontGlyph(width: nat, height: nat, isEmpty: bool)

  /** The font, reduced to its metrics lookup and its line height. */
  datatype Font = Font(glyphOf: char -> FontGlyph, lineHeight: nat)

  /** The glyph without a character that ends the text: no width, one line high. */
  function TerminatorGlyph(font: Font): FontGlyph
  {
    FontGlyph(0, font.lineHeight, true)
  }

  /** The two flags of the alignment that decide a line's horizontal placement. */
  datatype Alignment = Alignment(left: bool, right: bool)

  /** The exceptions the glyph lookup ends with. */
  datatype LayoutError = IndexOutOfRange | ArgumentOutOfRange

  // ---------------------------------------------------------------------------
  // Building one line

  /** Some glyph of `gs` draws something. */
  predicate HasVisible(gs: seq<FontGlyph>)
    decreases |gs|
  {
    gs != [] && (!gs[|gs| - 1].isEmpty || HasVisible(gs[..|gs| - 1]))
  }

  lemma {:induction false} HasVisibleSomewhere(gs: seq<FontGlyph>)
    ensures HasVisible(gs) == exists i :: 0 <= i < |gs| && !gs[i].isEmpty
    decreases |gs|
  {
    if gs != [] {
      var front := gs[..|gs| - 1];
      HasVisibleSomewhere(front);
      if HasVisible(front) {
        var i :| 0 <= i < |front| && !front[i].isEmpty;
        assert gs[i] == front[i];
      }
      if exists i :: 0 <= i < |gs| && !gs[i].isEmpty {
        var i :| 0 <= i < |gs| && !gs[i].isEmpty;
        if i < |front| {
          assert front[i] == gs[i];
        }
      }
    }
  }

  /** The width of a line after `gs` have been added to it in order: a glyph counts
      only once the line advances, which it does from the start when asked to,
      and from its first non-empty glyph on otherwise. */
  function AdvanceWidth(advanceOnEmptyGlyph: bool, gs: seq<FontGlyph>): nat
    decreases |gs|
  {
    if gs == [] then 0
    else
      AdvanceWidth(advanceOnEmptyGlyph, gs[..|gs| - 1])
        + (if advanceOnEmptyGlyph || HasVisible(gs) then gs[|gs| - 1].width else 0)
  }

  /** The height of a line after `gs` have been added to it. */
  function MaxHeight(gs: seq<FontGlyph>): nat
    decreases |gs|
  {
    if gs == [] then 0 else Max(MaxHeight(gs[..|gs| - 1]), gs[|gs| - 1].height)
  }

  /** What adding one more glyph does to the line's metrics. */
  lemma Appended(advanceOnEmptyGlyph: bool, gs: seq<FontGlyph>, g: FontGlyph)
    ensures HasVisible(gs + [g]) == (HasVisible(gs) || !g.isEmpty)
    ensures AdvanceWidth(advanceOnEmptyGlyph, gs + [g])
            == AdvanceWidth(advanceOnEmptyGlyph, gs) + (if advanceOnEmptyGlyph || HasVisible(gs) || !g.isEmpty then g.width else 0)
    ensures MaxHeight(gs + [g]) == Max(MaxHeight(gs), g.height)
    ensures forall j :: 0 <= j <= |gs| ==> (gs + [g])[..j] == gs[..j]
  {
    var hs := gs + [g];
    assert hs[..|hs| - 1] == gs;
  }

  /** A line that does not advance from the start and receives only empty glyphs keeps width 0. */
  lemma {:induction false} EmptyGlyphsKeepZeroWidth(gs: seq<FontGlyph>)
    requires !HasVisible(gs)
    ensures AdvanceWidth(false, gs) == 0
  {
    if gs != [] {
      EmptyGlyphsKeepZeroWidth(gs[..|gs| - 1]);
    }
  }

  /** A line that advances from the start is exactly as wide as its glyphs together. */
  lemma {:induction false} AdvancingLineWidth(gs: seq<FontGlyph>)
    ensures AdvanceWidth(true, gs) == SumWidths(gs)
  {
    if gs != [] {
      AdvancingLineWidth(gs[..|gs| - 1]);
    }
  }

  function SumWidths(gs: seq<FontGlyph>): nat
    decreases |gs|
  {
    if gs == [] then 0 else SumWidths(gs[..|gs| - 1]) + gs[|gs| - 1].width
  }

  /** Offsets never decrease along a line: an earlier prefix is never wider than a later one. */
  lemma {:induction false} AdvanceWidthMonotone(a: bool, gs: seq<FontGlyph>, i: nat, j: nat)
    requires i <= j <= |gs|
    ensures AdvanceWidth(a, gs[..i]) <= AdvanceWidth(a, gs[..j])
  {
    if i < j {
      AdvanceWidthMonotone(a, gs, i, j - 1);
      assert gs[..j][..j - 1] == gs[..j - 1];
    }
  }

  /** Once the line advances at glyph i, every later glyph starts at or past the far edge of glyph i. */
  lemma AdvancingGap(a: bool, gs: seq<FontGlyph>, i: nat, j: nat)
    requires i < j <= |gs|
    requires a || HasVisible(gs[..i + 1])
    ensures AdvanceWidth(a, gs[..i]) + gs[i].width <= AdvanceWidth(a, gs[..j])
  {
    assert gs[..i + 1][..i] == gs[..i];
    AdvanceWidthMonotone(a, gs, i + 1, j);
  }

  /** The line height is the largest glyph height, and 0 for a line without glyphs. */
  lemma {:induction false} MaxHeightIsMaximum(gs: seq<FontGlyph>)
    ensures forall i :: 0 <= i < |gs| ==> gs[i].height <= MaxHeight(gs)
    ensures gs != [] ==> exists i :: 0 <= i < |gs| && gs[i].height == MaxHeight(gs)
    ensures gs == [] ==> MaxHeight(gs) == 0
  {
    if gs != [] {
      var front := gs[..|gs| - 1];
      MaxHeightIsMaximum(front);
      forall i | 0 <= i < |front| ensures gs[i].height <= MaxHeight(gs) {
        assert gs[i] == front[i];
      }
      if MaxHeight(gs) != gs[|gs| - 1].height {
        var i :| 0 <= i < |front| && front[i].height == MaxHeight(front);
        assert gs[i] == front[i];
      }
    }
  }

  // ---------------------------------------------------------------------------
  // Value views of a built layout, and the queries stated on them

  /** A glyph as placed on its line: metrics, global character index, offset inside the line. */
  datatype PlacedGlyph = PlacedGlyph(glyph: FontGlyph, index: int, x: int)

  /** A line as placed in the layout. */
  datatype LineView = LineView(y: int, alignment: Alignment, width: int, height: int, glyphs: seq<PlacedGlyph>)

  /** Horizontal start of a line of width `lineWidth` in a layout of width `layoutWidth`. */
  function AlignedX(alignment: Alignment, layoutWidth: int, lineWidth: int): real
  {
    if alignment.left then 0.0
    else if alignment.right then (layoutWidth - lineWidth) as real
    else layoutWidth as real * 0.5 - lineWidth as real * 0.5
  }

  function LinePosition(alignment: Alignment, layoutWidth: int, lineWidth: int, y: int): Vec2
  {
    Vec2(AlignedX(alignment, layoutWidth, lineWidth), y as real)
  }

  /** A glyph's position: its line's position moved right by the glyph's offset. */
  function Shifted(linePosition: Vec2, x: int): Vec2
  {
    Vec2(linePosition.x + x as real, linePosition.y)
  }

  /** The far corner of a glyph drawn at `p`. */
  function FarCorner(p: Vec2, g: FontGlyph): Vec2
  {
    Vec2(p.x + g.width as real, p.y + g.height as real)
  }

  function GlyphPosition(l: LineView, layoutWidth: int, j: int): Vec2
    requires 0 <= j < |l.glyphs|
  {
    Shifted(LinePosition(l.alignment, layoutWidth, l.width, l.y), l.glyphs[j].x)
  }

  /** Every line lies inside the layout box, whatever the alignment, and a centred
      line leaves the same margin on both sides. */
  lemma AlignedLineFits(alignment: Alignment, layoutWidth: int, lineWidth: int)
    requires 0 <= lineWidth <= layoutWidth
    ensures 0.0 <= AlignedX(alignment, layoutWidth, lineWidth)
    ensures AlignedX(alignment, layoutWidth, lineWidth) + lineWidth as real <= layoutWidth as real
    ensures alignment.left ==> AlignedX(alignment, layoutWidth, lineWidth) == 0.0
    ensures !alignment.left && alignment.right ==>
              AlignedX(alignment, layoutWidth, lineWidth) + lineWidth as real == layoutWidth as real
    ensures !alignment.left && !alignment.right ==>
              AlignedX(alignment, layoutWidth, lineWidth)
                == layoutWidth as real - (AlignedX(alignment, layoutWidth, lineWidth) + lineWidth as real)
  {
  }

  /** All glyphs of the layout in iteration order: line by line, left to right. */
  function Flat(ls: seq<LineView>): seq<PlacedGlyph>
    decreases |ls|
  {
    if ls == [] then [] else Flat(ls[..|ls| - 1]) + ls[|ls| - 1].glyphs
  }

  /** Glyph indices count up from 0 across the lines in iteration order. */
  ghost predicate Numbered(ls: seq<LineView>)
  {
    forall k, j :: 0 <= k < |ls| && 0 <= j < |ls[k].glyphs| ==> ls[k].glyphs[j].index == |Flat(ls[..k])| + j
  }

  lemma {:induction false} FlatAppend(a: seq<LineView>, b: seq<LineView>)
    ensures Flat(a + b) == Flat(a) + Flat(b)
    decreases |b|
  {
    if b != [] {
      var front := b[..|b| - 1];
      assert (a + b)[..|a + b| - 1] == a + front;
      FlatAppend(a, front);
    } else {
      assert a + b == a;
    }
  }

  lemma FlatCons(ls: seq<LineView>)
    requires ls != []
    ensures Flat(ls) == ls[0].glyphs + Flat(ls[1..])
  {
    assert ls == [ls[0]] + ls[1..];
    FlatAppend([ls[0]], ls[1..]);
    assert Flat([ls[0]]) == Flat([]) + [ls[0]][0].glyphs;
  }

  /** Glyph j of line k sits in the flattened sequence right after the glyphs of the earlier lines. */
  lemma FlatAt(ls: seq<LineView>, k: nat, j: nat)
    requires k < |ls| && j < |ls[k].glyphs|
    ensures |Flat(ls[..k])| + j < |Flat(ls)|
    ensures Flat(ls)[|Flat(ls[..k])| + j] == ls[k].glyphs[j]
  {
    assert ls == ls[..k] + ([ls[k]] + ls[k + 1..]);
    FlatAppend(ls[..k], [ls[k]] + ls[k + 1..]);
    FlatCons([ls[k]] + ls[k + 1..]);
    assert ([ls[k]] + ls[k + 1..])[1..] == ls[k + 1..];
  }

  /** In a numbered layout the glyph at position i of the iteration has index i. */
  lemma FlatNumbering(ls: seq<LineView>, i: nat)
    requires Numbered(ls) && i < |Flat(ls)|
    ensures Flat(ls)[i].index == i
  {
    var k, j := Locate(ls, i);
    FlatAt(ls, k, j);
  }

  /** Finds the line and the offset inside it of the glyph at position i of the iteration. */
  lemma {:induction false} Locate(ls: seq<LineView>, i: nat) returns (k: nat, j: nat)
    requires i < |Flat(ls)|
    ensures k < |ls| && j < |ls[k].glyphs| && i == |Flat(ls[..k])| + j
    decreases |ls|
  {
    var n := |ls| - 1;
    assert ls[..n] == ls[..|ls| - 1];
    if i < |Flat(ls[..n])| {
      k, j := Locate(ls[..n], i);
      assert ls[..n][..k] == ls[..k];
    } else {
      k, j := n, i - |Flat(ls[..n])|;
    }
  }

  /** Extending the counted prefix by one line adds that line's glyphs. */
  lemma FlatPrefixStep(ls: seq<LineView>, k: nat)
    requires k < |ls|
    ensures |Flat(ls[..k + 1])| == |Flat(ls[..k])| + |ls[k].glyphs|
  {
    assert ls[..k + 1][..k] == ls[..k];
  }

  // --- index at a position

  predicate LineMatches(l: LineView, y: real)
  {
    y < l.y as real + l.height as real
  }

  function Midpoint(l: LineView, layoutWidth: int, j: int): real
    requires 0 <= j < |l.glyphs|
  {
    GlyphPosition(l, layoutWidth, j).x + l.glyphs[j].glyph.width as real * 0.5
  }

  /** Offset of the first glyph at or after j whose midpoint lies right of x, or of the line's last glyph. */
  function HitFrom(l: LineView, layoutWidth: int, x: real, j: nat): int
    requires j <= |l.glyphs|
    decreases |l.glyphs| - j
  {
    if j == |l.glyphs| then j - 1
    else if x < Midpoint(l, layoutWidth, j) then j
    else HitFrom(l, layoutWidth, x, j + 1)
  }

  function IndexFrom(ls: seq<LineView>, layoutWidth: int, p: Vec2, base: int): int
    decreases |ls|
  {
    if ls == [] then base - 1
    else if LineMatches(ls[0], p.y) then base + HitFrom(ls[0], layoutWidth, p.x, 0)
    else IndexFrom(ls[1..], layoutWidth, p, base + |ls[0].glyphs|)
  }

  /** The character index the layout reports for position p. */
  function CharacterIndexAt(ls: seq<LineView>, layoutWidth: int, p: Vec2): int
  {
    IndexFrom(ls, layoutWidth, p, 0)
  }

  /** Within a line the scan stops at the first glyph whose midpoint lies right of x,
      and at the line's last glyph when there is none. */
  lemma {:induction false} HitFromFirstRight(l: LineView, layoutWidth: int, x: real, j0: nat)
    requires j0 <= |l.glyphs|
    ensures var r := HitFrom(l, layoutWidth, x, j0);
      || (j0 <= r < |l.glyphs| && x < Midpoint(l, layoutWidth, r)
          && forall j :: j0 <= j < r ==> x >= Midpoint(l, layoutWidth, j))
      || (r == |l.glyphs| - 1 && forall j :: j0 <= j < |l.glyphs| ==> x >= Midpoint(l, layoutWidth, j))
    decreases |l.glyphs| - j0
  {
    if j0 < |l.glyphs| && x >= Midpoint(l, layoutWidth, j0) {
      HitFromFirstRight(l, layoutWidth, x, j0 + 1);
    }
  }

  /** The reported index never exceeds the last glyph's index and is at least -1. */
  lemma {:induction false} IndexFromRange(ls: seq<LineView>, layoutWidth: int, p: Vec2, base: int)
    ensures base - 1 <= IndexFrom(ls, layoutWidth, p, base) <= base + |Flat(ls)| - 1
    decreases |ls|
  {
    if ls != [] {
      FlatCons(ls);
      if LineMatches(ls[0], p.y) {
        HitFromFirstRight(ls[0], layoutWidth, p.x, 0);
      } else {
        IndexFromRange(ls[1..], layoutWidth, p, base + |ls[0].glyphs|);
      }
    }
  }

  /** Below every line the last glyph's index is reported. */
  lemma {:induction false} IndexBelowAllLines(ls: seq<LineView>, layoutWidth: int, p: Vec2, base: int)
    requires forall k :: 0 <= k < |ls| ==> !LineMatches(ls[k], p.y)
    ensures IndexFrom(ls, layoutWidth, p, base) == base + |Flat(ls)| - 1
    decreases |ls|
  {
    if ls != [] {
      FlatCons(ls);
      IndexBelowAllLines(ls[1..], layoutWidth, p, base + |ls[0].glyphs|);
    }
  }

  /** The first line whose bottom lies below y decides the result: the scan of that line,
      counted from the glyphs of the lines above it. */
  lemma {:induction false} IndexInFirstMatchingLine(ls: seq<LineView>, layoutWidth: int, p: Vec2, k: nat)
    requires k < |ls| && LineMatches(ls[k], p.y)
    requires forall m :: 0 <= m < k ==> !LineMatches(ls[m], p.y)
    ensures CharacterIndexAt(ls, layoutWidth, p) == |Flat(ls[..k])| + HitFrom(ls[k], layoutWidth, p.x, 0)
  {
    var i := 0;
    while i < k
      invariant 0 <= i <= k
      invariant CharacterIndexAt(ls, layoutWidth, p) == IndexFrom(ls[i..], layoutWidth, p, |Flat(ls[..i])|)
    {
      FlatPrefixStep(ls, i);
      assert ls[i..][0] == ls[i];
      assert ls[i..][1..] == ls[i + 1..];
      i := i + 1;
    }
    assert ls[k..][0] == ls[k];
  }

  /** When the first line has a glyph the reported index is a real glyph index, from 0 to the last. */
  lemma {:induction false} CharacterIndexAtIsGlyphIndex(ls: seq<LineView>, layoutWidth: int, p: Vec2)
    requires ls != [] && ls[0].glyphs != []
    ensures 0 <= CharacterIndexAt(ls, layoutWidth, p) < |Flat(ls)|
  {
    IndexFromRange(ls, layoutWidth, p, 0);
    FlatCons(ls);
    var first := ls[0];
    if LineMatches(first, p.y) {
      HitFromFirstRight(first, layoutWidth, p.x, 0);
    } else {
      IndexFromRange(ls[1..], layoutWidth, p, |ls[0].glyphs|);
    }
  }

  // --- selection rectangles

  /** The rectangle reported for one line whose first glyph has index `base`: it starts at the
      first glyph with index >= startIndex and reaches the far corner of the last glyph with
      index < endIndex (the origin when there is none); no rectangle when no glyph of the line
      has index >= startIndex. */
  function LineBounds(l: LineView, layoutWidth: int, startIndex: int, endIndex: int, base: int): Option<Box2>
  {
    var n := |l.glyphs|;
    if n == 0 || base + n - 1 < startIndex then None
    else
      var first := if startIndex <= base then 0 else startIndex - base;
      var bottomRight :=
        if endIndex <= base then Origin
        else
          var last := Min(endIndex - base, n) - 1;
          FarCorner(GlyphPosition(l, layoutWidth, last), l.glyphs[last].glyph);
      Some(Box2(GlyphPosition(l, layoutWidth, first), bottomRight))
  }

  function BoundsFrom(ls: seq<LineView>, layoutWidth: int, startIndex: int, endIndex: int, base: int): seq<Box2>
    decreases |ls|
  {
    if ls == [] then []
    else
      var here := match LineBounds(ls[0], layoutWidth, startIndex, endIndex, base)
                  case Some(b) => [b]
                  case None => [];
      here + BoundsFrom(ls[1..], layoutWidth, startIndex, endIndex, base + |ls[0].glyphs|)
  }

  /** One line's step of the scan behind TextBounds: the calls made so far grow by
      line k's rectangle, if it has one, and the scan moves on past its glyphs. */
  lemma BoundsStep(ls: seq<LineView>, layoutWidth: int, startIndex: int, endIndex: int,
                   k: nat, base: int, calls: seq<Box2>, hasBounds: bool, box: Box2)
    requires k < |ls|
    requires TextBounds(ls, layoutWidth, startIndex, endIndex)
             == calls + BoundsFrom(ls[k..], layoutWidth, startIndex, endIndex, base)
    requires LineBounds(ls[k], layoutWidth, startIndex, endIndex, base) == if hasBounds then Some(box) else None
    ensures TextBounds(ls, layoutWidth, startIndex, endIndex)
            == (if hasBounds then calls + [box] else calls)
               + BoundsFrom(ls[k + 1..], layoutWidth, startIndex, endIndex, base + |ls[k].glyphs|)
  {
    assert ls[k..][0] == ls[k];
    assert ls[k..][1..] == ls[k + 1..];
  }

  /** The rectangles handed to the action, in order. */
  function TextBounds(ls: seq<LineView>, layoutWidth: int, startIndex: int, endIndex: int): seq<Box2>
  {
    BoundsFrom(ls, layoutWidth, startIndex, endIndex, 0)
  }

  function NonEmptyLines(ls: seq<LineView>): nat
    decreases |ls|
  {
    if ls == [] then 0 else (if ls[0].glyphs == [] then 0 else 1) + NonEmptyLines(ls[1..])
  }

  /** At most one rectangle per line. */
  lemma {:induction false} BoundsAtMostOncePerLine(ls: seq<LineView>, layoutWidth: int, s: int, e: int, base: int)
    ensures |BoundsFrom(ls, layoutWidth, s, e, base)| <= |ls|
    decreases |ls|
  {
    if ls != [] {
      BoundsAtMostOncePerLine(ls[1..], layoutWidth, s, e, base + |ls[0].glyphs|);
    }
  }

  /** From the start of the text, every line that holds a glyph gets exactly one rectangle. */
  lemma {:induction false} BoundsFromStartCoverEveryLine(ls: seq<LineView>, layoutWidth: int, s: int, e: int, base: int)
    requires s <= base
    ensures |BoundsFrom(ls, layoutWidth, s, e, base)| == NonEmptyLines(ls)
    decreases |ls|
  {
    if ls != [] {
      BoundsFromStartCoverEveryLine(ls[1..], layoutWidth, s, e, base + |ls[0].glyphs|);
    }
  }

  /** A start past the last glyph yields no rectangle at all. */
  lemma {:induction false} BoundsPastTheEnd(ls: seq<LineView>, layoutWidth: int, s: int, e: int, base: int)
    requires base + |Flat(ls)| <= s
    ensures BoundsFrom(ls, layoutWidth, s, e, base) == []
    decreases |ls|
  {
    if ls != [] {
      FlatCons(ls);
      assert LineBounds(ls[0], layoutWidth, s, e, base) == None;
      BoundsPastTheEnd(ls[1..], layoutWidth, s, e, base + |ls[0].glyphs|);
    }
  }

  /** For a line numbered from `base`: it gets a rectangle exactly when one of its glyphs has
      index >= startIndex, the rectangle starts at the first such glyph, and its far corner is
      that of the last glyph with index < endIndex, or the origin when there is none. */
  lemma LineBoundsExactly(l: LineView, layoutWidth: int, s: int, e: int, base: int)
    requires forall j :: 0 <= j < |l.glyphs| ==> l.glyphs[j].index == base + j
    ensures LineBounds(l, layoutWidth, s, e, base).Some? == exists j :: 0 <= j < |l.glyphs| && s <= l.glyphs[j].index
    ensures LineBounds(l, layoutWidth, s, e, base).Some? ==>
              exists j :: 0 <= j < |l.glyphs| && s <= l.glyphs[j].index
                && (forall i :: 0 <= i < j ==> l.glyphs[i].index < s)
                && LineBounds(l, layoutWidth, s, e, base).value.topLeft == GlyphPosition(l, layoutWidth, j)
    ensures LineBounds(l, layoutWidth, s, e, base).Some? && (forall j :: 0 <= j < |l.glyphs| ==> e <= l.glyphs[j].index) ==>
              LineBounds(l, layoutWidth, s, e, base).value.bottomRight == Origin
    ensures LineBounds(l, layoutWidth, s, e, base).Some? && l.glyphs[0].index < e ==>
              exists j :: 0 <= j < |l.glyphs| && l.glyphs[j].index < e
                && (forall i :: j < i < |l.glyphs| ==> e <= l.glyphs[i].index)
                && LineBounds(l, layoutWidth, s, e, base).value.bottomRight
                     == FarCorner(GlyphPosition(l, layoutWidth, j), l.glyphs[j].glyph)
  {
    var n := |l.glyphs|;
    if n > 0 && s <= base + n - 1 {
      assert s <= l.glyphs[n - 1].index;
      var first := if s <= base then 0 else s - base;
      assert s <= l.glyphs[first].index;
      if base < e {
        var last := Min(e - base, n) - 1;
        assert l.glyphs[last].index < e;
      }
    }
  }

  // --- round trip between glyph positions and indices

  /** Each line starts where the lines above it end. */
  ghost predicate Stacked(ls: seq<LineView>)
  {
    forall k :: 0 <= k < |ls| ==> ls[k].y == HeightAbove(ls, k) && 0 <= ls[k].height
  }

  function HeightAbove(ls: seq<LineView>, k: nat): int
    requires k <= |ls|
  {
    if k == 0 then 0 else HeightAbove(ls, k - 1) + ls[k - 1].height
  }

  /** Asking for the index at the position of glyph j of line k gives back that glyph's index,
      provided the glyph and its line are not zero-sized and every glyph before it on the line
      ends at or before its offset (the line advanced at them). */
  lemma RoundTrip(ls: seq<LineView>, layoutWidth: int, k: nat, j: nat)
    requires Numbered(ls) && Stacked(ls)
    requires k < |ls| && j < |ls[k].glyphs|
    requires ls[k].height > 0 && ls[k].glyphs[j].glyph.width > 0
    requires forall i :: 0 <= i < j ==> ls[k].glyphs[i].x + ls[k].glyphs[i].glyph.width <= ls[k].glyphs[j].x
    ensures CharacterIndexAt(ls, layoutWidth, GlyphPosition(ls[k], layoutWidth, j)) == ls[k].glyphs[j].index
  {
    var p := GlyphPosition(ls[k], layoutWidth, j);
    assert p.y == HeightAbove(ls, k) as real;
    forall m | 0 <= m < k ensures !LineMatches(ls[m], p.y) {
      HeightAboveGrows(ls, m + 1, k);
      assert ls[m].y + ls[m].height == HeightAbove(ls, m + 1);
    }
    IndexInFirstMatchingLine(ls, layoutWidth, p, k);
    HitAtOwnPosition(ls[k], layoutWidth, j, 0);
    assert ls[k].glyphs[j].index == |Flat(ls[..k])| + j;
  }

  lemma {:induction false} HeightAboveGrows(ls: seq<LineView>, i: nat, k: nat)
    requires i <= k <= |ls|
    requires forall m :: 0 <= m < |ls| ==> 0 <= ls[m].height
    ensures HeightAbove(ls, i) <= HeightAbove(ls, k)
    decreases k - i
  {
    if i < k {
      HeightAboveGrows(ls, i, k - 1);
    }
  }

  lemma {:induction false} HitAtOwnPosition(l: LineView, layoutWidth: int, j: nat, j0: nat)
    requires j0 <= j < |l.glyphs| && l.glyphs[j].glyph.width > 0
    requires forall i :: 0 <= i < j ==> l.glyphs[i].x + l.glyphs[i].glyph.width <= l.glyphs[j].x
    ensures HitFrom(l, layoutWidth, GlyphPosition(l, layoutWidth, j).x, j0) == j
    decreases j - j0
  {
    if j0 < j {
      HitAtOwnPosition(l, layoutWidth, j, j0 + 1);
    }
  }

  // ---------------------------------------------------------------------------
  // Building a layout from the line strings

  function GlyphsOf(font: Font, s: string): seq<FontGlyph>
  {
    seq(|s|, i requires 0 <= i < |s| => font.glyphOf(s[i]))
  }

  function TotalLength(ts: seq<string>): nat
    decreases |ts|
  {
    if ts == [] then 0 else TotalLength(ts[..|ts| - 1]) + |ts[|ts| - 1]|
  }

  /** Sum of the heights of the lines built from `ts`, before any terminator is added. */
  function HeightOf(font: Font, ts: seq<string>): nat
    decreases |ts|
  {
    if ts == [] then 0 else HeightOf(font, ts[..|ts| - 1]) + MaxHeight(GlyphsOf(font, ts[|ts| - 1]))
  }

  /** Widest of the lines built from `ts`; only the first line advances from its start. */
  function WidthOf(font: Font, ts: seq<string>): nat
    decreases |ts|
  {
    if ts == [] then 0
    else Max(WidthOf(font, ts[..|ts| - 1]), AdvanceWidth(|ts| == 1, GlyphsOf(font, ts[|ts| - 1])))
  }

  /** The layout width is that of the widest line built from `ts`. */
  lemma {:induction false} WidthOfIsWidest(font: Font, ts: seq<string>)
    ensures forall k :: 0 <= k < |ts| ==> AdvanceWidth(k == 0, GlyphsOf(font, ts[k])) <= WidthOf(font, ts)
    ensures ts != [] ==> exists k :: 0 <= k < |ts| && AdvanceWidth(k == 0, GlyphsOf(font, ts[k])) == WidthOf(font, ts)
    decreases |ts|
  {
    if ts != [] {
      var n := |ts| - 1;
      var front := ts[..n];
      var last := AdvanceWidth(n == 0, GlyphsOf(font, ts[n]));
      assert WidthOf(font, ts) == Max(WidthOf(font, front), last);
      WidthOfIsWidest(font, front);
      forall k | 0 <= k < n
        ensures AdvanceWidth(k == 0, GlyphsOf(font, ts[k])) <= WidthOf(font, ts)
      {
        assert front[k] == ts[k];
      }
      if WidthOf(font, ts) != last {
        var k :| 0 <= k < |front| && AdvanceWidth(k == 0, GlyphsOf(font, front[k])) == WidthOf(font, front);
        assert front[k] == ts[k];
      }
    }
  }

  /** Lines built from `ts`, each numbered on from the lengths of the strings before it and the
      last one holding one extra glyph, are numbered consecutively, one glyph per character plus one. */
  lemma NumberedFromLengths(ls: seq<LineView>, ts: seq<string>)
    requires |ls| == |ts| > 0
    requires forall i :: 0 <= i < |ls| - 1 ==> |ls[i].glyphs| == |ts[i]|
    requires |ls[|ls| - 1].glyphs| == |ts[|ls| - 1]| + 1
    requires forall i, j :: 0 <= i < |ls| && 0 <= j < |ls[i].glyphs| ==> ls[i].glyphs[j].index == TotalLength(ts[..i]) + j
    ensures Numbered(ls)
    ensures |Flat(ls)| == TotalLength(ts) + 1
  {
    forall k | 0 <= k < |ls| ensures |Flat(ls[..k])| == TotalLength(ts[..k]) {
      PrefixLengths(ls, ts, k);
    }
    var n := |ls| - 1;
    PrefixLengths(ls, ts, n);
    FlatPrefixStep(ls, n);
    assert ls[..n + 1] == ls;
    assert ts[..n + 1] == ts;
    assert ts[..n + 1][..n] == ts[..n];
  }

  lemma {:induction false} PrefixLengths(ls: seq<LineView>, ts: seq<string>, k: nat)
    requires k <= |ls| == |ts|
    requires forall i :: 0 <= i < k ==> |ls[i].glyphs| == |ts[i]|
    ensures |Flat(ls[..k])| == TotalLength(ts[..k])
  {
    if k > 0 {
      PrefixLengths(ls, ts, k - 1);
      FlatPrefixStep(ls, k - 1);
      assert ts[..k][..k - 1] == ts[..k - 1];
    }
  }

  /** Glyph j of `line` has the metrics added j-th and starts where the glyphs before it end. */
  ghost predicate Placements(line: TextLayoutLine, gs: seq<TextLayoutGlyph>, advanceOnEmptyGlyph: bool, added: seq<FontGlyph>)
  {
    && |gs| == |added|
    && (forall j {:trigger gs[j].line} :: 0 <= j < |gs| ==> gs[j].line == line)
    && (forall j {:trigger gs[j].glyph} :: 0 <= j < |gs| ==> gs[j].glyph == added[j])
    && (forall j {:trigger gs[j].x} :: 0 <= j < |gs| ==> gs[j].x == AdvanceWidth(advanceOnEmptyGlyph, added[..j]))
  }

  /** A glyph placed at the current width keeps the placements right. */
  lemma PlacementsGrow(line: TextLayoutLine, gs: seq<TextLayoutGlyph>, advanceOnEmptyGlyph: bool, added: seq<FontGlyph>,
                       p: TextLayoutGlyph, g: FontGlyph)
    requires Placements(line, gs, advanceOnEmptyGlyph, added)
    requires p.line == line && p.glyph == g && p.x == AdvanceWidth(advanceOnEmptyGlyph, added)
    ensures Placements(line, gs + [p], advanceOnEmptyGlyph, added + [g])
  {
    var hs, bs := gs + [p], added + [g];
    forall j | 0 <= j < |hs|
      ensures hs[j].line == line && hs[j].glyph == bs[j] && hs[j].x == AdvanceWidth(advanceOnEmptyGlyph, bs[..j])
    {
      if j == |gs| {
        assert bs[..j] == added;
      } else {
        assert hs[j] == gs[j] && bs[..j] == added[..j];
      }
    }
  }

  /** The metrics of a line after one more glyph, as `TextLayoutLine.Add` updates them. */
  lemma LineGrows(line: TextLayoutLine, gs: seq<TextLayoutGlyph>, advanceOnEmptyGlyph: bool, added: seq<FontGlyph>,
                  advance: bool, width: int, height: int, p: TextLayoutGlyph, g: FontGlyph)
    requires Placements(line, gs, advanceOnEmptyGlyph, added)
    requires advance == (advanceOnEmptyGlyph || HasVisible(added))
    requires width == AdvanceWidth(advanceOnEmptyGlyph, added) && height == MaxHeight(added)
    requires p.line == line && p.glyph == g && p.x == width
    ensures Placements(line, gs + [p], advanceOnEmptyGlyph, added + [g])
    ensures (advance || !g.isEmpty) == (advanceOnEmptyGlyph || HasVisible(added + [g]))
    ensures width + (if advance || !g.isEmpty then g.width else 0) == AdvanceWidth(advanceOnEmptyGlyph, added + [g])
    ensures Max(height, g.height) == MaxHeight(added + [g])
  {
    Appended(advanceOnEmptyGlyph, added, g);
    PlacementsGrow(line, gs, advanceOnEmptyGlyph, added, p, g);
  }

  /** Glyph with consecutive index `index` at offset `x` on its line. */
  class TextLayoutGlyph {
    const line: TextLayoutLine
    const glyph: FontGlyph
    const index: int
    const x: int

    constructor (line: TextLayoutLine, glyph: FontGlyph, index: int, x: int)
      ensures this.line == line && this.glyph == glyph && this.index == index && this.x == x
    {
      this.line := line;
      this.glyph := glyph;
      this.index := index;
      this.x := x;
    }

    function Placed(): PlacedGlyph
    {
      PlacedGlyph(glyph, index, x)
    }

    function Position(): (r: Vec2)
      reads line, line.layout
      ensures r.y == line.Position().y && r.x == line.Position().x + x as real
    {
      Shifted(line.Position(), x)
    }
  }

  /** One visual line; glyphs are appended to it while the layout is built. */
  class TextLayoutLine {
    var glyphs: seq<TextLayoutGlyph>
    const layout: TextLayout
    const y: int
    const alignment: Alignment
    var advance: bool
    var width: int
    var height: int

    /** The flag the line was created with, and the glyph metrics added so far. */
    ghost const advanceOnEmptyGlyph: bool
    ghost var added: seq<FontGlyph>

    ghost predicate Valid()
      reads this
    {
      && Placements(this, glyphs, advanceOnEmptyGlyph, added)
      && advance == (advanceOnEmptyGlyph || HasVisible(added))
      && width == AdvanceWidth(advanceOnEmptyGlyph, added)
      && height == MaxHeight(added)
    }

    function GlyphCount(): nat
      reads this
    {
      |glyphs|
    }

    function View(): LineView
      reads this
    {
      var gs := glyphs;
      LineView(y, alignment, width, height, seq(|gs|, j requires 0 <= j < |gs| => gs[j].Placed()))
    }

    /** Left-aligned lines start at 0, right-aligned ones end at the layout's width, and the
        others leave equal margins; the line's top is its y. */
    function Position(): (r: Vec2)
      reads this, layout
      ensures r.y == y as real
      ensures alignment.left ==> r.x == 0.0
      ensures !alignment.left && alignment.right ==> r.x + width as real == layout.size.x as real
      ensures !alignment.left && !alignment.right ==> r.x == layout.size.x as real - (r.x + width as real)
    {
      LinePosition(alignment, layout.size.x, width, y)
    }

    constructor (layout: TextLayout, y: int, alignment: Alignment, advanceOnEmptyGlyph: bool)
      ensures Valid()
      ensures this.layout == layout && this.y == y && this.alignment == alignment
      ensures this.advanceOnEmptyGlyph == advanceOnEmptyGlyph && advance == advanceOnEmptyGlyph
      ensures glyphs == [] && added == [] && width == 0 && height == 0
    {
      this.layout := layout;
      this.y := y;
      this.alignment := alignment;
      this.advanceOnEmptyGlyph := advanceOnEmptyGlyph;
      advance := advanceOnEmptyGlyph;
      glyphs := [];
      added := [];
      width := 0;
      height := 0;
    }

    /** Appends a glyph at the current width; the width grows by the glyph's width only once
        the line advances, and the height is the largest glyph height seen. */
    method Add(glyph: FontGlyph, glyphIndex: int)
      requires Valid()
      modifies this
      ensures Valid()
      ensures added == old(added) + [glyph]
      ensures |glyphs| == old(|glyphs|) + 1 && glyphs[..old(|glyphs|)] == old(glyphs)
      ensures glyphs[old(|glyphs|)].index == glyphIndex && glyphs[old(|glyphs|)].x == old(width)
      ensures advance == (old(advance) || !glyph.isEmpty)
      ensures width == old(width) + (if advance then glyph.width else 0)
      ensures height == Max(old(height), glyph.height)
    {
      var placed := new TextLayoutGlyph(this, glyph, glyphIndex, width);
      LineGrows(this, glyphs, advanceOnEmptyGlyph, added, advance, width, height, placed, glyph);
      if !glyph.isEmpty {
        advance := true;
      }
      glyphs := glyphs + [placed];
      if advance {
        width := width + glyph.width;
      }
      height := Max(height, glyph.height);
      added := added + [glyph];
    }

    /** The glyph at a position of the line, or the error a list lookup out of range raises. */
    function GetGlyph(index: int): (r: Result<TextLayoutGlyph, LayoutError>)
      reads this
      ensures r.Ok? <==> 0 <= index < GlyphCount()
      ensures r.Ok? ==> r.value.Placed() == View().glyphs[index]
      ensures r.Err? ==> r.error == ArgumentOutOfRange
    {
      if 0 <= index < |glyphs| then Ok(glyphs[index]) else Err(ArgumentOutOfRange)
    }
  }

  /** The placed glyphs of a text, line by line. */
  class TextLayout {
    const textLines: seq<string>
    var lines: seq<TextLayoutLine>
    var size: Size

    function View(): seq<LineView>
      reads this, lines
    {
      var ls := lines;
      seq(|ls|, k requires 0 <= k < |ls| reads ls => ls[k].View())
    }

    /** Every line belongs to this layout and every glyph to its line. */
    ghost predicate Wired()
      reads this, lines
    {
      forall k :: 0 <= k < |lines| ==>
        && lines[k].layout == this
        && forall j :: 0 <= j < |lines[k].glyphs| ==> lines[k].glyphs[j].line == lines[k]
    }

    ghost predicate Valid()
      reads this, lines
    {
      && |lines| > 0
      && Wired()
      && (forall k :: 0 <= k < |lines| ==> lines[k].Valid())
      && Numbered(View())
    }

    function GlyphCount(): nat
      reads this, lines
    {
      |Flat(View())|
    }

    /** Line k of a layout built from textLines: its glyphs are those of textLines[k]
        followed by `extra`, numbered on from the glyphs of the lines above. */
    ghost predicate LineBuilt(line: TextLayoutLine, font: Font, alignment: Alignment, textLines: seq<string>,
                              k: nat, extra: seq<FontGlyph>)
      reads line
      requires k < |textLines|
    {
      && line.layout == this
      && line.Valid()
      && line.advanceOnEmptyGlyph == (k == 0)
      && line.alignment == alignment
      && line.y == HeightOf(font, textLines[..k])
      && line.added == GlyphsOf(font, textLines[k]) + extra
      && forall j :: 0 <= j < |line.glyphs| ==> line.glyphs[j].index == TotalLength(textLines[..k]) + j
    }

    /** The glyphs for the terminator: on the last line only. */
    static function Extra(font: Font, k: nat, n: nat): seq<FontGlyph>
    {
      if k == n - 1 then [TerminatorGlyph(font)] else []
    }

    /** The text lines a layout is built from: an empty text is laid out as one empty line. */
    static function LaidOut(text: string, textLines: seq<string>): seq<string>
    {
      if |text| > 0 then textLines else [""]
    }

    /** The layout holds one line per text line of ts, the last one ending in the terminator,
        and its size is the widest line by the stacked heights, plus a line height when the
        last text line is empty. */
    ghost predicate Built(font: Font, alignment: Alignment, ts: seq<string>)
      reads this, lines
    {
      && |lines| == |ts| > 0
      && (forall k :: 0 <= k < |lines| ==> LineBuilt(lines[k], font, alignment, ts, k, Extra(font, k, |lines|)))
      && size == Size(WidthOf(font, ts), HeightOf(font, ts) + (if ts[|ts| - 1] == "" then font.lineHeight else 0))
    }

    /** Lays out `text`, already split into `textLines` by the line breaker: one line per
        text line, stacked from y = 0, the last one ending in the zero-width terminator. */
    constructor (text: string, textLines: seq<string>, font: Font, alignment: Alignment)
      requires |text| > 0 ==> |textLines| > 0
      ensures Valid()
      ensures this.textLines == textLines
      ensures Built(font, alignment, LaidOut(text, textLines))
      ensures GlyphCount() == TotalLength(LaidOut(text, textLines)) + 1
    {
      this.textLines := textLines;
      lines := [];
      size := Size(0, 0);
      new;
      if |text| > 0 {
        LayOutText(font, alignment);
      } else {
        LayOutEmpty(font, alignment);
      }
      BuiltIsNumbered(font, alignment, LaidOut(text, textLines));
    }

    /** The non-empty branch of the constructor. The loop's last round is written out after
        the loop, where the terminator is added to the line it has just built. */
    method LayOutText(font: Font, alignment: Alignment)
      requires |textLines| > 0
      modifies this
      ensures Built(font, alignment, textLines)
    {
      var n := |textLines|;
      var built, width, height, glyphIndex := LayOutLines(textLines, n - 1, font, alignment);
      var lastLine := LayOutLine(textLines[n - 1], font, alignment, height, |built| == 0, glyphIndex);
      lines := built + [lastLine];
      glyphIndex := glyphIndex + |textLines[n - 1]|;
      width := Max(width, lastLine.width);
      height := height + lastLine.height;
      assert textLines[..n][..n - 1] == textLines[..n - 1];
      assert textLines[..n] == textLines;
      assert LineBuilt(lastLine, font, alignment, textLines, n - 1, []);
      assert (textLines[n - 1] == "") == (lastLine.GlyphCount() == 0);
      if lastLine.GlyphCount() == 0 {
        height := height + font.lineHeight;
      }
      assert width == WidthOf(font, textLines);
      assert height == HeightOf(font, textLines) + (if textLines[n - 1] == "" then font.lineHeight else 0);
      size := Size(width, height);
      AddTerminator(built, lastLine, font, alignment, textLines, glyphIndex);
      glyphIndex := glyphIndex + 1;
    }

    /** The terminator added to the last line, the other lines left as they are. */
    method AddTerminator(built: seq<TextLayoutLine>, lastLine: TextLayoutLine, font: Font, alignment: Alignment,
                         textLines: seq<string>, glyphIndex: int)
      requires |built| + 1 == |textLines|
      requires forall i :: 0 <= i < |built| ==> built[i] != lastLine
      requires forall i :: 0 <= i < |built| ==> LineBuilt(built[i], font, alignment, textLines, i, [])
      requires LineBuilt(lastLine, font, alignment, textLines, |built|, [])
      requires glyphIndex == TotalLength(textLines)
      modifies lastLine
      ensures forall k :: 0 <= k < |textLines| ==>
                LineBuilt((built + [lastLine])[k], font, alignment, textLines, k, Extra(font, k, |textLines|))
    {
      var n := |textLines|;
      ghost var before := lastLine.glyphs;
      assert textLines[..n] == textLines;
      assert |before| == |lastLine.added| == |textLines[n - 1]|;
      lastLine.Add(TerminatorGlyph(font), glyphIndex);
      forall j | 0 <= j < |lastLine.glyphs|
        ensures lastLine.glyphs[j].index == TotalLength(textLines[..n - 1]) + j
      {
        if j < |before| {
          assert lastLine.glyphs[j] == before[j];
        }
      }
      assert LineBuilt(lastLine, font, alignment, textLines, n - 1, [TerminatorGlyph(font)]);
      forall k | 0 <= k < n
        ensures LineBuilt((built + [lastLine])[k], font, alignment, textLines, k, Extra(font, k, n))
      {
        if k < n - 1 {
          assert (built + [lastLine])[k] == built[k];
        }
      }
    }

    /** The empty-text branch of the constructor: a single line holding only the terminator. */
    method LayOutEmpty(font: Font, alignment: Alignment)
      requires lines == []
      modifies this
      ensures Built(font, alignment, [""])
    {
      var line := new TextLayoutLine(this, 0, alignment, |lines| == 0);
      line.Add(TerminatorGlyph(font), 0);
      lines := [line];
      size := Size(0, font.lineHeight);
      ghost var ts := [""];
      assert ts[..0] == [];
      assert GlyphsOf(font, "") == [];
      assert WidthOf(font, ts) == 0 && HeightOf(font, ts) == 0;
      assert LineBuilt(line, font, alignment, ts, 0, Extra(font, 0, 1));
    }

    /** The loop of the constructor over the first `count` text lines: one fresh line per
        text line, stacked from y = 0, with the widest line's width and the sum of the heights. */
    method LayOutLines(textLines: seq<string>, count: nat, font: Font, alignment: Alignment)
      returns (built: seq<TextLayoutLine>, width: int, height: int, glyphIndex: int)
      requires count <= |textLines|
      ensures |built| == count
      ensures forall i :: 0 <= i < count ==> LineBuilt(built[i], font, alignment, textLines, i, [])
      ensures glyphIndex == TotalLength(textLines[..count])
      ensures width == WidthOf(font, textLines[..count])
      ensures height == HeightOf(font, textLines[..count])
    {
      built := [];
      glyphIndex := 0;
      width := 0;
      height := 0;
      for k := 0 to count
        invariant |built| == k
        invariant forall i :: 0 <= i < k ==> LineBuilt(built[i], font, alignment, textLines, i, [])
        invariant glyphIndex == TotalLength(textLines[..k])
        invariant width == WidthOf(font, textLines[..k])
        invariant height == HeightOf(font, textLines[..k])
      {
        var line := LayOutLine(textLines[k], font, alignment, height, |built| == 0, glyphIndex);
        assert textLines[..k + 1][..k] == textLines[..k];
        assert line.added == GlyphsOf(font, textLines[k]) + [];
        built := built + [line];
        glyphIndex := glyphIndex + |textLines[k]|;
        width := Max(width, line.width);
        height := height + line.height;
      }
    }

    /** A layout whose lines are built from textLines is numbered in reading order. */
    lemma BuiltIsNumbered(font: Font, alignment: Alignment, textLines: seq<string>)
      requires Built(font, alignment, textLines)
      ensures Valid()
      ensures GlyphCount() == TotalLength(textLines) + 1
    {
      forall k | 0 <= k < |lines|
        ensures lines[k].layout == this && lines[k].Valid()
        ensures |lines[k].glyphs| == |textLines[k]| + |Extra(font, k, |lines|)|
        ensures forall j :: 0 <= j < |lines[k].glyphs| ==> lines[k].glyphs[j].index == TotalLength(textLines[..k]) + j
      {
        assert LineBuilt(lines[k], font, alignment, textLines, k, Extra(font, k, |lines|));
      }
      BuiltViewNumbered(textLines);
    }

    /** The numbering of the glyphs, read off the view. */
    lemma BuiltViewNumbered(textLines: seq<string>)
      requires |lines| == |textLines| > 0
      requires forall k :: 0 <= k < |lines| - 1 ==> |lines[k].glyphs| == |textLines[k]|
      requires |lines[|lines| - 1].glyphs| == |textLines[|lines| - 1]| + 1
      requires forall k, j :: 0 <= k < |lines| && 0 <= j < |lines[k].glyphs| ==>
                 lines[k].glyphs[j].index == TotalLength(textLines[..k]) + j
      ensures Numbered(View())
      ensures |Flat(View())| == TotalLength(textLines) + 1
    {
      var ls := View();
      forall k | 0 <= k < |ls|
        ensures |ls[k].glyphs| == |lines[k].glyphs|
        ensures forall j :: 0 <= j < |ls[k].glyphs| ==> ls[k].glyphs[j].index == lines[k].glyphs[j].index
      {
        assert ls[k] == lines[k].View();
      }
      NumberedFromLengths(ls, textLines);
      assert |Flat(ls)| == TotalLength(textLines) + 1;
    }

    /** Each line holds the glyphs of its text line, and the last one also the terminator. */
    lemma BuiltGlyphs(font: Font, alignment: Alignment, ts: seq<string>)
      requires Built(font, alignment, ts)
      ensures forall k :: 0 <= k < |lines| ==> |lines[k].glyphs| == |ts[k]| + (if k == |lines| - 1 then 1 else 0)
      ensures forall k, j :: 0 <= k < |lines| && 0 <= j < |ts[k]| ==> lines[k].glyphs[j].glyph == font.glyphOf(ts[k][j])
      ensures lines[|lines| - 1].glyphs[|ts[|lines| - 1]|].glyph == TerminatorGlyph(font)
    {
      forall k | 0 <= k < |lines|
        ensures |lines[k].glyphs| == |ts[k]| + (if k == |lines| - 1 then 1 else 0)
        ensures forall j :: 0 <= j < |ts[k]| ==> lines[k].glyphs[j].glyph == font.glyphOf(ts[k][j])
      {
        assert LineBuilt(lines[k], font, alignment, ts, k, Extra(font, k, |lines|));
      }
      var n := |lines| - 1;
      assert LineBuilt(lines[n], font, alignment, ts, n, [TerminatorGlyph(font)]);
    }

    /** An empty text gives one line holding only the terminator, with index 0, and the size
        of an empty line. */
    lemma BuiltEmpty(font: Font, alignment: Alignment)
      requires Built(font, alignment, [""])
      ensures |lines| == 1 && |lines[0].glyphs| == 1
      ensures lines[0].glyphs[0].index == 0 && lines[0].glyphs[0].glyph == TerminatorGlyph(font)
      ensures size == Size(0, font.lineHeight)
    {
      assert LineBuilt(lines[0], font, alignment, [""], 0, [TerminatorGlyph(font)]);
      assert GlyphsOf(font, "") == [];
      assert [""][..0] == [];
    }

    /** Each line starts where the lines above it end. */
    lemma BuiltIsStacked(font: Font, alignment: Alignment, ts: seq<string>)
      requires Built(font, alignment, ts)
      ensures Stacked(View())
    {
      var ls := View();
      forall k | 0 <= k < |ls|
        ensures ls[k].y == HeightAbove(ls, k) && 0 <= ls[k].height
      {
        HeightsAbove(font, alignment, ts, k);
        assert ls[k] == lines[k].View();
      }
    }

    lemma {:induction false} HeightsAbove(font: Font, alignment: Alignment, ts: seq<string>, k: nat)
      requires Built(font, alignment, ts) && k < |lines|
      ensures HeightAbove(View(), k) == HeightOf(font, ts[..k]) == View()[k].y
      decreases k
    {
      assert View()[k] == lines[k].View();
      assert LineBuilt(lines[k], font, alignment, ts, k, Extra(font, k, |lines|));
      if k > 0 {
        var i := k - 1;
        HeightsAbove(font, alignment, ts, i);
        assert View()[i] == lines[i].View();
        assert LineBuilt(lines[i], font, alignment, ts, i, []);
        assert GlyphsOf(font, ts[i]) + [] == GlyphsOf(font, ts[i]);
        assert ts[..k][..i] == ts[..i];
      }
    }

    /** The layout is as wide as its widest line; the terminator adds no width. */
    lemma BuiltWidest(font: Font, alignment: Alignment, ts: seq<string>)
      requires Built(font, alignment, ts)
      ensures forall k :: 0 <= k < |lines| ==> lines[k].width <= size.x
      ensures exists k :: 0 <= k < |lines| && lines[k].width == size.x
    {
      WidthOfIsWidest(font, ts);
      forall k | 0 <= k < |lines|
        ensures lines[k].width == AdvanceWidth(k == 0, GlyphsOf(font, ts[k]))
      {
        var extra := Extra(font, k, |lines|);
        assert LineBuilt(lines[k], font, alignment, ts, k, extra);
        Appended(k == 0, GlyphsOf(font, ts[k]), TerminatorGlyph(font));
        assert GlyphsOf(font, ts[k]) + [] == GlyphsOf(font, ts[k]);
      }
      var k :| 0 <= k < |ts| && AdvanceWidth(k == 0, GlyphsOf(font, ts[k])) == WidthOf(font, ts);
      assert lines[k].width == size.x;
    }

    /** One line of the constructor's loop: a fresh line of this layout at height y
        holding the glyphs of `textLine`, numbered from glyphIndex. */
    method LayOutLine(textLine: string, font: Font, alignment: Alignment, y: int, first: bool, glyphIndex: int)
      returns (line: TextLayoutLine)
      ensures fresh(line)
      ensures line.Valid() && line.layout == this && line.y == y && line.alignment == alignment
      ensures line.advanceOnEmptyGlyph == first
      ensures line.added == GlyphsOf(font, textLine)
      ensures forall j :: 0 <= j < |line.glyphs| ==> line.glyphs[j].index == glyphIndex + j
    {
      line := new TextLayoutLine(this, y, alignment, first);
      for c := 0 to |textLine|
        modifies line
        invariant line.Valid() && line.layout == this && line.y == y && line.alignment == alignment
        invariant line.advanceOnEmptyGlyph == first
        invariant line.added == GlyphsOf(font, textLine[..c])
        invariant forall j :: 0 <= j < c ==> line.glyphs[j].index == glyphIndex + j
      {
        line.Add(font.glyphOf(textLine[c]), glyphIndex + c);
        assert GlyphsOf(font, textLine[..c + 1]) == GlyphsOf(font, textLine[..c]) + [font.glyphOf(textLine[c])];
      }
      assert textLine[..|textLine|] == textLine;
    }

    /** Line k of the view is line k of the layout. */
    lemma LineAgrees(k: nat)
      requires Wired() && k < |lines|
      ensures |View()[k].glyphs| == |lines[k].glyphs|
      ensures lines[k].Position().y + lines[k].height as real == View()[k].y as real + View()[k].height as real
    {
      assert View()[k] == lines[k].View();
    }

    /** Glyph j of line k is where the view places it. */
    lemma GlyphAgrees(k: nat, j: nat)
      requires Wired() && k < |lines| && j < |lines[k].glyphs|
      ensures |View()[k].glyphs| == |lines[k].glyphs|
      ensures lines[k].glyphs[j].Position() == GlyphPosition(View()[k], size.x, j)
      ensures lines[k].glyphs[j].glyph == View()[k].glyphs[j].glyph
    {
      LineAgrees(k);
    }

    /** The glyph with index `index`: lines are skipped while the index is past their glyphs. */
    method GetGlyph(index: int) returns (r: Result<TextLayoutGlyph, LayoutError>)
      requires Valid()
      ensures 0 <= index < GlyphCount() ==>
                r.Ok? && r.value.Placed() == Flat(View())[index] && r.value.index == index
      ensures index < 0 ==> r == Err(ArgumentOutOfRange)
      ensures GlyphCount() <= index ==> r == Err(IndexOutOfRange)
    {
      ghost var ls := View();
      var rest := index;
      var k := 0;
      while k < |lines|
        invariant 0 <= k <= |lines|
        invariant rest == index - |Flat(ls[..k])|
        invariant 0 < k ==> 0 <= rest
      {
        var line := lines[k];
        assert ls[k] == line.View();
        if rest < line.GlyphCount() {
          r := line.GetGlyph(rest);
          if 0 <= rest {
            assert r.value.Placed() == ls[k].glyphs[rest];
            assert ls[k].glyphs[rest].index == index;
            FlatAt(ls, k, rest);
            assert Flat(ls)[index] == r.value.Placed();
          }
          return;
        }
        FlatPrefixStep(ls, k);
        rest := rest - line.GlyphCount();
        k := k + 1;
      }
      assert ls[..k] == ls;
      r := Err(IndexOutOfRange);
    }

    /** The character index for a position: within the first line whose bottom lies below the
        position, the first glyph whose midpoint lies right of it, else that line's last glyph;
        the last glyph of all when the position is below every line. */
    method GetCharacterIndexAt(position: Vec2) returns (r: int)
      requires Wired()
      ensures r == CharacterIndexAt(View(), size.x, position)
    {
      ghost var ls := View();
      var index := 0;
      var k := 0;
      while k < |lines|
        invariant 0 <= k <= |lines|
        invariant CharacterIndexAt(ls, size.x, position) == IndexFrom(ls[k..], size.x, position, index)
      {
        var line := lines[k];
        LineAgrees(k);
        assert ls[k..][0] == ls[k];
        var lineMatches := position.y < line.Position().y + line.height as real;
        assert lineMatches == LineMatches(ls[k], position.y);
        var found, next := ScanLine(k, lineMatches, position.x, index);
        if found {
          return next;
        }
        if lineMatches {
          return next - 1;
        }
        assert ls[k..][1..] == ls[k + 1..];
        index := next;
        k := k + 1;
      }
      return index - 1;
    }

    /** The inner scan of GetCharacterIndexAt over line k, whose first glyph has index `base`:
        it stops at the first glyph whose midpoint lies right of x when the line matches,
        and otherwise counts the line's glyphs. */
    method ScanLine(k: nat, lineMatches: bool, x: real, base: int) returns (found: bool, index: int)
      requires Wired() && k < |lines|
      ensures found ==> lineMatches && index == base + HitFrom(View()[k], size.x, x, 0) < base + |lines[k].glyphs|
      ensures !found ==> index == base + |lines[k].glyphs|
      ensures !found && lineMatches ==> HitFrom(View()[k], size.x, x, 0) == |lines[k].glyphs| - 1
    {
      ghost var l := View()[k];
      LineAgrees(k);
      var line := lines[k];
      index := base;
      var j := 0;
      while j < |line.glyphs|
        invariant 0 <= j <= |line.glyphs|
        invariant index == base + j
        invariant lineMatches ==> HitFrom(l, size.x, x, 0) == HitFrom(l, size.x, x, j)
      {
        var glyph := line.glyphs[j];
        GlyphAgrees(k, j);
        if lineMatches && x < glyph.Position().x + glyph.glyph.width as real * 0.5 {
          return true, index;
        }
        index := index + 1;
        j := j + 1;
      }
      found := false;
    }

    /** Hands the action one rectangle per line that holds a glyph with index >= startIndex,
        in line order; the rectangles are returned in the order of the calls. */
    method ForTextBounds(startIndex: int, endIndex: int) returns (calls: seq<Box2>)
      requires Wired()
      ensures calls == TextBounds(View(), size.x, startIndex, endIndex)
    {
      ghost var ls := View();
      calls := [];
      var index := 0;
      var k := 0;
      while k < |lines|
        invariant 0 <= k <= |lines|
        invariant TextBounds(ls, size.x, startIndex, endIndex)
                    == calls + BoundsFrom(ls[k..], size.x, startIndex, endIndex, index)
      {
        var hasBounds, box, next := LineBox(k, startIndex, endIndex, index);
        BoundsStep(ls, size.x, startIndex, endIndex, k, index, calls, hasBounds, box);
        if hasBounds {
          calls := calls + [box];
        }
        index := next;
        k := k + 1;
      }
    }

    /** The inner scan of ForTextBounds over line k, whose first glyph has index `base`:
        the rectangle from the first glyph at or after startIndex to the far corner of
        the last glyph before endIndex, if any glyph of the line is at or after startIndex. */
    method LineBox(k: nat, startIndex: int, endIndex: int, base: int) returns (hasBounds: bool, box: Box2, next: int)
      requires Wired() && k < |lines|
      ensures next == base + |View()[k].glyphs|
      ensures LineBounds(View()[k], size.x, startIndex, endIndex, base) == if hasBounds then Some(box) else None
    {
      ghost var l := View()[k];
      LineAgrees(k);
      var line := lines[k];
      var topLeft := Origin;
      var bottomRight := Origin;
      hasBounds := false;
      var index := base;
      var j := 0;
      while j < |line.glyphs|
        invariant 0 <= j <= |line.glyphs|
        invariant index == base + j
        invariant hasBounds == (0 < j && startIndex <= base + j - 1)
        invariant hasBounds ==> topLeft == GlyphPosition(l, size.x, if startIndex <= base then 0 else startIndex - base)
        invariant bottomRight == if j == 0 || endIndex <= base then Origin
                                 else var last := Min(endIndex - base, j) - 1;
                                      FarCorner(GlyphPosition(l, size.x, last), l.glyphs[last].glyph)
      {
        var layoutGlyph := line.glyphs[j];
        GlyphAgrees(k, j);
        if !hasBounds && startIndex <= index {
          topLeft := layoutGlyph.Position();
          hasBounds := true;
        }
        if index < endIndex {
          bottomRight := FarCorner(layoutGlyph.Position(), layoutGlyph.glyph);
        }
        index := index + 1;
        j := j + 1;
      }
      box := Box2(topLeft, bottomRight);
      next := index;
    }
  }
}

=== FILE: textbox.dfy ===
/** The editable text field: a value, an anchor (`selectionStart`) and a caret
    (`cursorPosition`), focus and commit flags, and the notifications it fires. */
module UserInterface {
  import opened Wrappers

  /** What the field hands to the outside world, in the order it happens: its two
      notifications, the keyboard-focus requests it makes of the widget manager, and the
      text it puts on the clipboard. */
  datatype Event = ValueChanged | ValueCommited | FocusRequested | FocusReleased | ClipboardSet(text: string)

  /** The keys the field reacts to; every other key is `Other`. */
  datatype Key = Escape | BackSpace | Delete | A | C | V | X | Left | Right | Up | Down | Home | End | Enter | KeypadEnter | Other

  /** What a key press reads from its surroundings: the modifier state, the clipboard text,
      and the character indices the content label reports above and below the caret. */
  datatype Input = Input(shift: bool, controlOnly: bool, clipboardText: string, indexAbove: int, indexBelow: int)

  /** The number of times `e` was fired. */
  function Count(events: seq<Event>, e: Event): nat
    decreases |events|
  {
    if events == [] then 0
    else Count(events[..|events| - 1], e) + (if events[|events| - 1] == e then 1 else 0)
  }

  /** Firing one more event counts it once more. */
  lemma CountSnoc(events: seq<Event>, x: Event, e: Event)
    ensures Count(events + [x], e) == Count(events, e) + (if x == e then 1 else 0)
  {
    assert (events + [x])[..|events|] == events;
  }

  /** `text` with every line break removed. */
  function RemoveNewlines(text: string): (r: string)
    ensures |r| <= |text|
    decreases |text|
  {
    if text == [] then []
    else (if text[0] == '\n' then [] else [text[0]]) + RemoveNewlines(text[1..])
  }

  /** No line break is left, every other character is kept as often as it occurs, and
      removing distributes over concatenation, so the kept characters stay in order. */
  lemma {:induction false} RemoveNewlinesRemovesAll(text: string)
    ensures '\n' !in RemoveNewlines(text)
    ensures forall c :: c != '\n' ==> (c in RemoveNewlines(text) <==> c in text)
    ensures forall c :: c != '\n' ==> multiset(RemoveNewlines(text))[c] == multiset(text)[c]
    decreases |text|
  {
    if text != [] {
      RemoveNewlinesRemovesAll(text[1..]);
      assert text == [text[0]] + text[1..];
      assert multiset(text) == multiset([text[0]]) + multiset(text[1..]);
      var head := if text[0] == '\n' then [] else [text[0]];
      assert multiset(RemoveNewlines(text)) == multiset(head) + multiset(RemoveNewlines(text[1..]));
    }
  }

  /** Removing the line breaks of two texts one after the other removes them from each. */
  lemma {:induction false} RemoveNewlinesAppend(a: string, b: string)
    ensures RemoveNewlines(a + b) == RemoveNewlines(a) + RemoveNewlines(b)
    decreases |a|
  {
    if a == [] {
      assert a + b == b;
    } else {
      assert (a + b)[1..] == a[1..] + b;
      RemoveNewlinesAppend(a[1..], b);
    }
  }

  /** A text without line breaks comes back unchanged, and only then. */
  lemma {:induction false} RemoveNewlinesKeeps(text: string)
    ensures RemoveNewlines(text) == text <==> '\n' !in text
    decreases |text|
  {
    if text != [] {
      RemoveNewlinesKeeps(text[1..]);
      assert text == [text[0]] + text[1..];
      if text[0] == '\n' {
        assert |RemoveNewlines(text)| < |text| by {
          assert |RemoveNewlines(text[1..])| <= |text[1..]|;
        }
      }
    }
  }

  /** Removing the line breaks a second time changes nothing. */
  lemma RemoveNewlinesIdempotent(text: string)
    ensures RemoveNewlines(RemoveNewlines(text)) == RemoveNewlines(text)
  {
    RemoveNewlinesRemovesAll(text);
    RemoveNewlinesKeeps(RemoveNewlines(text));
  }

  /** A nullable string as the field stores it: null becomes the empty string. */
  function OrEmpty(value: Option<string>): string
  {
    match value
    case Some(s) => s
    case None => ""
  }

  /** The whole state of a text field, with its notifications so far. */
  datatype Field = Field(value: string, selectionStart: int, cursorPosition: int, hasFocus: bool,
                         hasCommitPending: bool, acceptMultiline: bool, enterCommits: bool, events: seq<Event>)
  {
    /** Both indices lie inside the value, and a commit is only pending while the field has focus. */
    ghost predicate Valid()
    {
      && 0 <= selectionStart <= |value|
      && 0 <= cursorPosition <= |value|
      && (!hasFocus ==> !hasCommitPending)
    }

    function SelectionLeft(): (r: int)
      ensures r <= selectionStart && r <= cursorPosition && (r == selectionStart || r == cursorPosition)
    {
      Min(selectionStart, cursorPosition)
    }

    function SelectionRight(): (r: int)
      ensures selectionStart <= r && cursorPosition <= r && (r == selectionStart || r == cursorPosition)
    {
      Max(selectionStart, cursorPosition)
    }

    function SelectionLength(): (r: nat)
      ensures r == SelectionRight() - SelectionLeft()
    {
      if cursorPosition >= selectionStart then cursorPosition - selectionStart else selectionStart - cursorPosition
    }

    /** The selection lies inside the value, as removing or copying it requires. */
    predicate SelectionInValue()
    {
      0 <= SelectionLeft() && SelectionRight() <= |value|
    }

    /** The `SelectionLeft` setter: the anchor is written when it is the smaller index,
        the caret otherwise (also on a tie). */
    function WithSelectionLeft(index: int): Field
    {
      if selectionStart < cursorPosition then this.(selectionStart := index) else this.(cursorPosition := index)
    }

    /** The `SelectionRight` setter: the anchor is written when it is the larger index,
        the caret otherwise (also on a tie). */
    function WithSelectionRight(index: int): Field
    {
      if selectionStart > cursorPosition then this.(selectionStart := index) else this.(cursorPosition := index)
    }

    /** `SetValueSilent`: stores the value and clamps both indices down to its length. */
    function StoreSilent(newValue: Option<string>): Field
    {
      var text := OrEmpty(newValue);
      this.(value := text,
            selectionStart := if selectionStart > |text| then |text| else selectionStart,
            cursorPosition := if cursorPosition > |text| then |text| else cursorPosition)
    }

    /** The `Value` setter. */
    function Assign(newValue: Option<string>): Field
    {
      if newValue == Some(value) then this
      else
        var stored := StoreSilent(newValue);
        stored.(hasCommitPending := hasCommitPending || hasFocus,
                events := events + [ValueChanged] + (if hasFocus then [] else [ValueCommited]))
    }

    /** The `AcceptMultiline` setter: turning it off strips the line breaks from the value. */
    function WithAcceptMultiline(accept: bool): Field
    {
      if acceptMultiline == accept then this
      else
        var switched := this.(acceptMultiline := accept);
        if accept then switched else switched.Assign(Some(RemoveNewlines(value)))
    }

    function SelectAll(): Field
    {
      this.(selectionStart := 0, cursorPosition := |value|)
    }

    /** Removes the selection, inserts `text` where it started, assigns the result through
        the `Value` setter and puts both indices after the inserted text. */
    function ReplaceSelection(text: string): Field
      requires SelectionInValue()
    {
      var left := SelectionLeft();
      var right := SelectionRight();
      var replaced := Assign(Some(value[..left] + text + value[right..]));
      var after := replaced.SelectionLeft() + |text|;
      replaced.(selectionStart := after, cursorPosition := after)
    }

    /** The focus-change handler: losing focus with a commit pending fires the commit. */
    function FocusChanged(focus: bool): Field
    {
      if hasFocus == focus then this
      else
        var committed :=
          if hasFocus && hasCommitPending then this.(events := events + [ValueCommited], hasCommitPending := false)
          else this;
        committed.(hasFocus := focus)
    }

    /** Moves the caret to `index`; the anchor follows unless Shift is held. */
    function MoveCaret(index: int, shift: bool): Field
    {
      this.(cursorPosition := index, selectionStart := if shift then selectionStart else index)
    }

    /** The key leaves the handler nothing to throw on: a selection it removes or copies
        lies inside the value. */
    predicate CanHandle(key: Key, input: Input)
    {
      match key
      case BackSpace => SelectionInValue()
      case Delete => SelectionInValue()
      case C => input.controlOnly && selectionStart != cursorPosition ==> SelectionInValue()
      case X => input.controlOnly && selectionStart != cursorPosition ==> SelectionInValue()
      case V => input.controlOnly ==> SelectionInValue()
      case Enter => acceptMultiline && (!enterCommits || input.shift) ==> SelectionInValue()
      case KeypadEnter => acceptMultiline && (!enterCommits || input.shift) ==> SelectionInValue()
      case _ => true
    }

    /** The key-down handler; nothing happens while the field does not have focus. */
    function KeyDown(key: Key, input: Input): Field
      requires hasFocus ==> CanHandle(key, input)
    {
      if !hasFocus then this
      else match key
        case Escape => this.(events := events + [FocusReleased])
        case BackSpace => BackSpacePressed()
        case Delete => DeletePressed()
        case A => if input.controlOnly then SelectAll() else this
        case C => if input.controlOnly then Copied() else this
        case V =>
          if input.controlOnly then
            ReplaceSelection(if acceptMultiline then input.clipboardText else RemoveNewlines(input.clipboardText))
          else this
        case X => if input.controlOnly then Cut() else this
        case Left => LeftPressed(input.shift)
        case Right => RightPressed(input.shift)
        case Up => MoveCaret(input.indexAbove, input.shift)
        case Down => MoveCaret(input.indexBelow, input.shift)
        case Home => MoveCaret(0, input.shift)
        case End => MoveCaret(|value|, input.shift)
        case Enter => EnterPressed(input.shift)
        case KeypadEnter => EnterPressed(input.shift)
        case Other => this
    }

    /** Backspace widens a collapsed caret by the character before it, then removes the selection. */
    function BackSpacePressed(): Field
      requires SelectionInValue()
    {
      var widened := if selectionStart > 0 && selectionStart == cursorPosition
                     then this.(selectionStart := selectionStart - 1) else this;
      widened.ReplaceSelection("")
    }

    /** Delete widens a collapsed caret by the character after it, then removes the selection. */
    function DeletePressed(): Field
      requires SelectionInValue()
    {
      var widened := if selectionStart < |value| && selectionStart == cursorPosition
                     then this.(cursorPosition := cursorPosition + 1) else this;
      widened.ReplaceSelection("")
    }

    /** Control+C puts the selection on the clipboard, or the whole value when there is none. */
    function Copied(): Field
      requires selectionStart != cursorPosition ==> SelectionInValue()
    {
      var copied := if selectionStart != cursorPosition
                    then value[SelectionLeft()..SelectionLeft() + SelectionLength()] else value;
      this.(events := events + [ClipboardSet(copied)])
    }

    /** Control+X selects everything when nothing is selected, puts the selection on the
        clipboard and removes it. */
    function Cut(): Field
      requires selectionStart != cursorPosition ==> SelectionInValue()
    {
      var selected := if selectionStart == cursorPosition then SelectAll() else this;
      var left := selected.SelectionLeft();
      var copied := selected.(events := events + [ClipboardSet(selected.value[left..left + selected.SelectionLength()])]);
      copied.ReplaceSelection("")
    }

    function LeftPressed(shift: bool): Field
    {
      if shift then (if cursorPosition > 0 then this.(cursorPosition := cursorPosition - 1) else this)
      else if selectionStart != cursorPosition then WithSelectionRight(SelectionLeft())
      else if cursorPosition > 0 then this.(selectionStart := selectionStart - 1, cursorPosition := selectionStart - 1)
      else this
    }

    function RightPressed(shift: bool): Field
    {
      if shift then (if cursorPosition < |value| then this.(cursorPosition := cursorPosition + 1) else this)
      else if selectionStart != cursorPosition then WithSelectionLeft(SelectionRight())
      else if cursorPosition < |value| then this.(cursorPosition := cursorPosition + 1, selectionStart := cursorPosition + 1)
      else this
    }

    /** Enter inserts a line break when multiline text is accepted and Enter does not commit
        (or Shift is held); otherwise it fires a pending commit when Enter commits. */
    function EnterPressed(shift: bool): Field
      requires acceptMultiline && (!enterCommits || shift) ==> SelectionInValue()
    {
      if acceptMultiline && (!enterCommits || shift) then ReplaceSelection("\n")
      else if enterCommits && hasCommitPending then this.(events := events + [ValueCommited], hasCommitPending := false)
      else this
    }

    /** The key-press handler: a typed character replaces the selection. */
    function KeyPress(c: char): Field
      requires hasFocus ==> SelectionInValue()
    {
      if !hasFocus then this else ReplaceSelection([c])
    }

    /** A click asks for the keyboard focus and collapses the selection at the clicked index. */
    function ClickDown(index: int): Field
    {
      this.(events := events + [FocusRequested], selectionStart := index, cursorPosition := index)
    }

    /** A drag moves only the caret, to the index under the pointer. */
    function Drag(index: int): Field
    {
      this.(cursorPosition := index)
    }
  }

  // ---------------------------------------------------------------------------
  // Selection accessors

  /** Left and right are the two indices in order, and the length is their distance. */
  lemma SelectionEdges(f: Field)
    ensures f.SelectionLeft() <= f.SelectionRight()
    ensures {f.SelectionLeft(), f.SelectionRight()} == {f.selectionStart, f.cursorPosition}
    ensures f.SelectionLength() == 0 <==> f.selectionStart == f.cursorPosition
  {
  }

  /** Whatever the index, the left-edge setter writes it to the index holding the left edge
      (the caret on a tie) and changes nothing else; for an index no larger than the right
      edge, that makes it the new left edge with the right edge kept. */
  lemma SetSelectionLeft(f: Field, index: int)
    ensures f.selectionStart < f.cursorPosition ==> f.WithSelectionLeft(index) == f.(selectionStart := index)
    ensures f.selectionStart >= f.cursorPosition ==> f.WithSelectionLeft(index) == f.(cursorPosition := index)
    ensures var g := f.WithSelectionLeft(index);
      index <= f.SelectionRight() ==> g.SelectionLeft() == index && g.SelectionRight() == f.SelectionRight()
  {
  }

  /** Whatever the index, the right-edge setter writes it to the index holding the right edge
      (the caret on a tie) and changes nothing else; for an index no smaller than the left
      edge, that makes it the new right edge with the left edge kept. */
  lemma SetSelectionRight(f: Field, index: int)
    ensures f.selectionStart > f.cursorPosition ==> f.WithSelectionRight(index) == f.(selectionStart := index)
    ensures f.selectionStart <= f.cursorPosition ==> f.WithSelectionRight(index) == f.(cursorPosition := index)
    ensures var g := f.WithSelectionRight(index);
      f.SelectionLeft() <= index ==> g.SelectionRight() == index && g.SelectionLeft() == f.SelectionLeft()
  {
  }

  // ---------------------------------------------------------------------------
  // Value

  /** Storing silently fires nothing, keeps every index that still fits and clamps the others
      to the new length. */
  lemma StoreSilentClamps(f: Field, newValue: Option<string>)
    ensures var g := f.StoreSilent(newValue);
      && g.value == OrEmpty(newValue) && g.events == f.events
      && g.hasFocus == f.hasFocus && g.hasCommitPending == f.hasCommitPending
      && g.acceptMultiline == f.acceptMultiline && g.enterCommits == f.enterCommits
      && g.selectionStart <= |g.value| && g.cursorPosition <= |g.value|
      && (f.selectionStart <= |g.value| ==> g.selectionStart == f.selectionStart)
      && (f.cursorPosition <= |g.value| ==> g.cursorPosition == f.cursorPosition)
      && (f.selectionStart > |g.value| ==> g.selectionStart == |g.value|)
      && (f.cursorPosition > |g.value| ==> g.cursorPosition == |g.value|)
      && (f.Valid() ==> g.Valid())
  {
  }

  /** A changed value fires the change notification and then, when the field has no focus,
      the commit, and nothing else; with focus the commit is left pending. An unchanged
      value does nothing. */
  lemma AssignNotifies(f: Field, newValue: Option<string>)
    ensures newValue == Some(f.value) ==> f.Assign(newValue) == f
    ensures var g := f.Assign(newValue);
      newValue != Some(f.value) ==>
        && g.value == OrEmpty(newValue)
        && g.events == f.events + [ValueChanged] + (if f.hasFocus then [] else [ValueCommited])
        && Count(g.events, ValueChanged) == Count(f.events, ValueChanged) + 1
        && Count(g.events, ValueCommited) == Count(f.events, ValueCommited) + (if f.hasFocus then 0 else 1)
        && g.hasCommitPending == (f.hasCommitPending || f.hasFocus)
        && g.hasFocus == f.hasFocus
    ensures var g := f.Assign(newValue);
      newValue != Some(f.value) ==> g.(hasCommitPending := f.hasCommitPending, events := f.events) == f.StoreSilent(newValue)
  {
    if newValue != Some(f.value) {
      var changed := f.events + [ValueChanged];
      CountSnoc(f.events, ValueChanged, ValueChanged);
      CountSnoc(f.events, ValueChanged, ValueCommited);
      if !f.hasFocus {
        assert f.Assign(newValue).events == changed + [ValueCommited];
        CountSnoc(changed, ValueCommited, ValueChanged);
        CountSnoc(changed, ValueCommited, ValueCommited);
      } else {
        assert f.Assign(newValue).events == changed;
      }
    }
  }

  /** Assigning null to an empty field counts as a change: the stored value stays empty, but
      the change notification fires. */
  lemma AssignNullToEmpty(f: Field)
    requires f.value == ""
    ensures f.Assign(None).value == "" && f.Assign(None).events[|f.events|] == ValueChanged
  {
  }

  /** The `Value` setter stores any string as given, line breaks included, even when
      multiline text is not accepted; only turning `AcceptMultiline` off strips them. */
  lemma AssignKeepsNewlines(f: Field, s: string)
    ensures f.Assign(Some(s)).value == s
    ensures f.Assign(Some(s)).acceptMultiline == f.acceptMultiline
  {
  }

  /** Turning multiline off leaves no line break in the value and notifies only when there
      was one; turning it on changes nothing else. */
  lemma AcceptMultilineOff(f: Field)
    requires f.acceptMultiline
    ensures var g := f.WithAcceptMultiline(false);
      && !g.acceptMultiline && g.value == RemoveNewlines(f.value) && '\n' !in g.value
      && (g.events == f.events <==> '\n' !in f.value)
      && ('\n' in f.value ==> g.events == f.events + [ValueChanged] + (if f.hasFocus then [] else [ValueCommited]))
      && g.hasFocus == f.hasFocus && g.enterCommits == f.enterCommits
      && (f.Valid() ==> g.Valid())
  {
    RemoveNewlinesRemovesAll(f.value);
    RemoveNewlinesKeeps(f.value);
  }

  lemma AcceptMultilineOn(f: Field)
    requires !f.acceptMultiline
    ensures f.WithAcceptMultiline(true) == f.(acceptMultiline := true)
  {
  }

  // ---------------------------------------------------------------------------
  // Editing

  /** The index of the first character after the edit, once the new value has clamped the
      indices: the left edge survives, since the new value is at least that long. */
  lemma ReplacedLeftSurvives(f: Field, text: string)
    requires f.SelectionInValue()
    ensures f.Assign(Some(f.value[..f.SelectionLeft()] + text + f.value[f.SelectionRight()..])).SelectionLeft()
            == f.SelectionLeft()
  {
    var left, right := f.SelectionLeft(), f.SelectionRight();
    var v := f.value[..left] + text + f.value[right..];
    assert |v| == left + |text| + (|f.value| - right);
  }

  /** Replacing the selection splices `text` in place of the selected characters, collapses
      both indices right after it, notifies as the `Value` setter does, and keeps the
      field valid. */
  lemma ReplaceSelectionSplices(f: Field, text: string)
    requires f.SelectionInValue()
    ensures var g := f.ReplaceSelection(text);
      && g.value == f.value[..f.SelectionLeft()] + text + f.value[f.SelectionRight()..]
      && g.selectionStart == g.cursorPosition == f.SelectionLeft() + |text|
      && g.hasFocus == f.hasFocus
      && g.hasCommitPending == (f.hasCommitPending || (f.hasFocus && g.value != f.value))
      && g.acceptMultiline == f.acceptMultiline && g.enterCommits == f.enterCommits
      && (g.value != f.value ==> g.events == f.events + [ValueChanged] + (if f.hasFocus then [] else [ValueCommited]))
      && (g.value == f.value ==> g.events == f.events)
      && (f.Valid() ==> g.Valid())
  {
    ReplacedLeftSurvives(f, text);
  }

  /** Backspace on a collapsed caret removes the character before it. */
  lemma BackSpaceAtCaret(f: Field, input: Input)
    requires f.hasFocus && f.selectionStart == f.cursorPosition && 0 < f.cursorPosition <= |f.value|
    ensures var c := f.cursorPosition; var g := f.KeyDown(BackSpace, input);
      g.value == f.value[..c - 1] + f.value[c..] && g.selectionStart == g.cursorPosition == c - 1
  {
    var widened := f.(selectionStart := f.selectionStart - 1);
    assert widened.SelectionLeft() == f.cursorPosition - 1 && widened.SelectionRight() == f.cursorPosition;
    assert f.KeyDown(BackSpace, input) == f.BackSpacePressed() == widened.ReplaceSelection("");
    ReplaceSelectionSplices(widened, "");
    assert f.value[..f.cursorPosition - 1] + "" == f.value[..f.cursorPosition - 1];
  }

  /** Delete on a collapsed caret removes the character after it. */
  lemma DeleteAtCaret(f: Field, input: Input)
    requires f.hasFocus && f.selectionStart == f.cursorPosition && 0 <= f.cursorPosition < |f.value|
    ensures var c := f.cursorPosition; var g := f.KeyDown(Delete, input);
      g.value == f.value[..c] + f.value[c + 1..] && g.selectionStart == g.cursorPosition == c
  {
    var widened := f.(cursorPosition := f.cursorPosition + 1);
    assert widened.SelectionLeft() == f.cursorPosition && widened.SelectionRight() == f.cursorPosition + 1;
    assert f.KeyDown(Delete, input) == f.DeletePressed() == widened.ReplaceSelection("");
    ReplaceSelectionSplices(widened, "");
    assert f.value[..f.cursorPosition] + "" == f.value[..f.cursorPosition];
  }

  /** With a selection, Backspace and Delete remove just the selection. */
  lemma DeleteSelection(f: Field, key: Key, input: Input)
    requires f.hasFocus && f.SelectionInValue() && f.selectionStart != f.cursorPosition
    requires key == BackSpace || key == Delete
    ensures var g := f.KeyDown(key, input);
      g.value == f.value[..f.SelectionLeft()] + f.value[f.SelectionRight()..]
      && g.selectionStart == g.cursorPosition == f.SelectionLeft()
  {
    ReplaceSelectionSplices(f, "");
  }

  /** At the very start Backspace, and at the very end Delete, change neither the value nor
      the notifications. */
  lemma DeleteAtEdges(f: Field, input: Input)
    requires f.hasFocus && f.selectionStart == f.cursorPosition
    ensures f.cursorPosition == 0 ==> f.KeyDown(BackSpace, input).value == f.value
    ensures f.cursorPosition == 0 ==> f.KeyDown(BackSpace, input).events == f.events
    ensures f.cursorPosition == |f.value| ==> f.KeyDown(Delete, input).value == f.value
    ensures f.cursorPosition == |f.value| ==> f.KeyDown(Delete, input).events == f.events
  {
    if f.cursorPosition == 0 {
      ReplaceSelectionSplices(f, "");
      assert f.value[..0] + "" + f.value[0..] == f.value;
    }
    if f.cursorPosition == |f.value| {
      ReplaceSelectionSplices(f, "");
      assert f.value[..|f.value|] + "" + f.value[|f.value|..] == f.value;
    }
  }

  /** A typed character is inserted in place of the selection, the caret right after it; at a
      collapsed caret this always changes the value, so a commit becomes pending. */
  lemma TypedCharacter(f: Field, c: char)
    requires f.hasFocus && f.SelectionInValue()
    ensures var g := f.KeyPress(c);
      g.value == f.value[..f.SelectionLeft()] + [c] + f.value[f.SelectionRight()..]
      && g.selectionStart == g.cursorPosition == f.SelectionLeft() + 1
      && Count(g.events, ValueCommited) == Count(f.events, ValueCommited)
      && (f.selectionStart == f.cursorPosition ==> g.hasCommitPending)
  {
    ReplaceSelectionSplices(f, [c]);
    var g := f.KeyPress(c);
    if f.selectionStart == f.cursorPosition {
      assert |g.value| == |f.value| + 1;
    }
    AssignNotifies(f, Some(f.value[..f.SelectionLeft()] + [c] + f.value[f.SelectionRight()..]));
  }

  // ---------------------------------------------------------------------------
  // Caret movement

  /** Without Shift, Left collapses a selection to its left edge and moves no further;
      Right collapses it to its right edge. */
  lemma ArrowsCollapseSelection(f: Field, input: Input)
    requires f.hasFocus && f.SelectionInValue() && !input.shift && f.selectionStart != f.cursorPosition
    ensures var g := f.KeyDown(Left, input);
      g.selectionStart == g.cursorPosition == f.SelectionLeft() && g.value == f.value && g.events == f.events
    ensures var g := f.KeyDown(Right, input);
      g.selectionStart == g.cursorPosition == f.SelectionRight() && g.value == f.value && g.events == f.events
  {
  }

  /** Without Shift, Left and Right move a collapsed caret by one character, staying within
      the value. */
  lemma ArrowsMoveCaret(f: Field, input: Input)
    requires f.hasFocus && f.Valid() && !input.shift && f.selectionStart == f.cursorPosition
    ensures var g := f.KeyDown(Left, input);
      g.selectionStart == g.cursorPosition == Max(f.cursorPosition - 1, 0) && g.value == f.value
    ensures var g := f.KeyDown(Right, input);
      g.selectionStart == g.cursorPosition == Min(f.cursorPosition + 1, |f.value|) && g.value == f.value
  {
  }

  /** With Shift only the caret moves, by one character within the value. */
  lemma ShiftArrowsExtend(f: Field, input: Input)
    requires f.hasFocus && f.Valid() && input.shift
    ensures var g := f.KeyDown(Left, input);
      g.selectionStart == f.selectionStart && g.cursorPosition == Max(f.cursorPosition - 1, 0) && g.value == f.value
    ensures var g := f.KeyDown(Right, input);
      g.selectionStart == f.selectionStart && g.cursorPosition == Min(f.cursorPosition + 1, |f.value|) && g.value == f.value
  {
  }

  /** Home and End put the caret at the start and the end of the whole value; the anchor
      follows unless Shift is held. */
  lemma HomeAndEnd(f: Field, input: Input)
    requires f.hasFocus && f.SelectionInValue()
    ensures var g := f.KeyDown(Home, input);
      g.cursorPosition == 0 && g.selectionStart == (if input.shift then f.selectionStart else 0) && g.value == f.value
    ensures var g := f.KeyDown(End, input);
      g.cursorPosition == |f.value| && g.selectionStart == (if input.shift then f.selectionStart else |f.value|)
      && g.value == f.value
  {
  }

  /** Select-all spans the whole value from the anchor at 0. */
  lemma SelectAllSpans(f: Field, input: Input)
    ensures f.SelectAll().SelectionLeft() == 0 && f.SelectAll().SelectionLength() == |f.value|
    ensures f.hasFocus && f.SelectionInValue() && input.controlOnly ==> f.KeyDown(A, input) == f.SelectAll()
  {
  }

  // ---------------------------------------------------------------------------
  // Clipboard

  /** Control+C leaves the field as it is and puts on the clipboard the selected characters,
      or the whole value when nothing is selected. */
  lemma CopyPutsSelection(f: Field, input: Input)
    requires f.hasFocus && f.SelectionInValue() && input.controlOnly
    ensures var g := f.KeyDown(C, input);
      && g.(events := f.events) == f
      && g.events == f.events + [ClipboardSet(
           if f.selectionStart != f.cursorPosition then f.value[f.SelectionLeft()..f.SelectionRight()] else f.value)]
  {
  }

  /** Control+V inserts the clipboard text in place of the selection, with its line breaks
      removed unless multiline text is accepted, so a single-line field never receives one
      from the clipboard. */
  lemma PasteInserts(f: Field, input: Input)
    requires f.hasFocus && f.SelectionInValue() && input.controlOnly
    ensures var g := f.KeyDown(V, input);
      var pasted := if f.acceptMultiline then input.clipboardText else RemoveNewlines(input.clipboardText);
      && g.value == f.value[..f.SelectionLeft()] + pasted + f.value[f.SelectionRight()..]
      && g.selectionStart == g.cursorPosition == f.SelectionLeft() + |pasted|
      && (!f.acceptMultiline ==> '\n' !in pasted)
  {
    var pasted := if f.acceptMultiline then input.clipboardText else RemoveNewlines(input.clipboardText);
    ReplaceSelectionSplices(f, pasted);
    RemoveNewlinesRemovesAll(input.clipboardText);
  }

  // ---------------------------------------------------------------------------
  // Pointer

  /** Escape asks the widget manager to release the keyboard focus and changes nothing else;
      once the manager calls the focus-change handler, the field is unfocused and a pending
      commit has fired exactly once. */
  lemma {:induction false} EscapeReleasesFocus(f: Field, input: Input)
    requires f.hasFocus
    ensures f.KeyDown(Escape, input) == f.(events := f.events + [FocusReleased])
    ensures var h := f.KeyDown(Escape, input).FocusChanged(false);
      && !h.hasFocus && !h.hasCommitPending && h.value == f.value
      && Count(h.events, ValueCommited) == Count(f.events, ValueCommited) + (if f.hasCommitPending then 1 else 0)
  {
    var g := f.KeyDown(Escape, input);
    CountSnoc(f.events, FocusReleased, ValueCommited);
    if f.hasCommitPending {
      CountSnoc(g.events, ValueCommited, ValueCommited);
    }
  }

  /** A click requests the focus and collapses the selection at the clicked index; a drag
      then moves only the caret, so the selection runs from the click to the pointer. */
  lemma ClickThenDragSelects(f: Field, down: int, here: int)
    ensures var g := f.ClickDown(down).Drag(here);
      && g.selectionStart == down && g.cursorPosition == here
      && g.SelectionLeft() == Min(down, here) && g.SelectionRight() == Max(down, here)
      && g.events == f.events + [FocusRequested] && g.value == f.value && g.hasFocus == f.hasFocus
  {
  }

  // ---------------------------------------------------------------------------
  // Commits and focus

  /** Enter inserts a line break exactly when multiline text is accepted and Enter does not
      commit or Shift is held; otherwise it fires a pending commit once when Enter commits,
      clearing the pending flag. */
  lemma EnterCommitsOrBreaksLine(f: Field, key: Key, input: Input)
    requires f.hasFocus && f.SelectionInValue() && (key == Enter || key == KeypadEnter)
    ensures var g := f.KeyDown(key, input);
      f.acceptMultiline && (!f.enterCommits || input.shift) ==>
        g.value == f.value[..f.SelectionLeft()] + "\n" + f.value[f.SelectionRight()..]
        && g.selectionStart == g.cursorPosition == f.SelectionLeft() + 1
    ensures var g := f.KeyDown(key, input);
      !(f.acceptMultiline && (!f.enterCommits || input.shift)) ==>
        && g.value == f.value
        && (f.enterCommits && f.hasCommitPending ==> g.events == f.events + [ValueCommited] && !g.hasCommitPending)
        && (!(f.enterCommits && f.hasCommitPending) ==> g == f)
  {
    ReplaceSelectionSplices(f, "\n");
  }

  /** Losing focus with a commit pending fires the commit once and clears the flag; a focus
      event that does not change the focus does nothing. */
  lemma FocusLossCommits(f: Field, focus: bool)
    ensures f.FocusChanged(f.hasFocus) == f
    ensures f.hasFocus && f.hasCommitPending ==>
      var g := f.FocusChanged(false);
      && g.events == f.events + [ValueCommited] && !g.hasCommitPending && !g.hasFocus && g.value == f.value
    ensures f.hasFocus != focus && !(f.hasFocus && f.hasCommitPending) ==> f.FocusChanged(focus) == f.(hasFocus := focus)
  {
  }

  /** Key handlers ignore every key and character while the field does not have focus. */
  lemma UnfocusedIgnoresKeys(f: Field, key: Key, input: Input, c: char)
    requires !f.hasFocus
    ensures f.KeyDown(key, input) == f && f.KeyPress(c) == f
  {
  }

  /** Typing a character at the caret of a focused field fires no commit; losing focus
      afterwards fires exactly one. */
  lemma TypeThenBlur(f: Field, c: char)
    requires f.Valid() && f.hasFocus && f.selectionStart == f.cursorPosition
    ensures var typed := f.KeyPress(c);
      && Count(typed.events, ValueCommited) == Count(f.events, ValueCommited)
      && Count(typed.FocusChanged(false).events, ValueCommited) == Count(f.events, ValueCommited) + 1
  {
    TypedCharacter(f, c);
    var typed := f.KeyPress(c);
    CountSnoc(typed.events, ValueCommited, ValueCommited);
  }

  // ---------------------------------------------------------------------------
  // The invariant

  /** Every key keeps both indices inside the value and a commit pending only under focus,
      given that the indices the label reports above and below the caret are inside the value. */
  lemma KeyDownKeepsValid(f: Field, key: Key, input: Input)
    requires f.Valid()
    requires 0 <= input.indexAbove <= |f.value| && 0 <= input.indexBelow <= |f.value|
    ensures f.KeyDown(key, input).Valid()
  {
    if key.BackSpace? || key.Delete? || key.V? || key.X? || key.Enter? || key.KeypadEnter? {
      EditingKeysKeepValid(f, key, input);
    } else {
      OtherKeysKeepValid(f, key, input);
    }
  }

  lemma EditingKeysKeepValid(f: Field, key: Key, input: Input)
    requires f.Valid()
    requires key.BackSpace? || key.Delete? || key.V? || key.X? || key.Enter? || key.KeypadEnter?
    ensures f.KeyDown(key, input).Valid()
  {
    if f.hasFocus {
      match key
      case BackSpace => BackSpaceKeepsValid(f);
      case Delete => DeleteKeepsValid(f);
      case V => ReplaceSelectionSplices(f, if f.acceptMultiline then input.clipboardText else RemoveNewlines(input.clipboardText));
      case X => CutKeepsValid(f);
      case Enter => ReplaceSelectionSplices(f, "\n");
      case KeypadEnter => ReplaceSelectionSplices(f, "\n");
    }
  }

  lemma OtherKeysKeepValid(f: Field, key: Key, input: Input)
    requires f.Valid()
    requires 0 <= input.indexAbove <= |f.value| && 0 <= input.indexBelow <= |f.value|
    requires !(key.BackSpace? || key.Delete? || key.V? || key.X? || key.Enter? || key.KeypadEnter?)
    ensures f.KeyDown(key, input).Valid()
  {
  }

  lemma BackSpaceKeepsValid(f: Field)
    requires f.Valid()
    ensures f.BackSpacePressed().Valid()
  {
    var widened := if f.selectionStart > 0 && f.selectionStart == f.cursorPosition
                   then f.(selectionStart := f.selectionStart - 1) else f;
    ReplaceSelectionSplices(widened, "");
  }

  lemma DeleteKeepsValid(f: Field)
    requires f.Valid()
    ensures f.DeletePressed().Valid()
  {
    var widened := if f.selectionStart < |f.value| && f.selectionStart == f.cursorPosition
                   then f.(cursorPosition := f.cursorPosition + 1) else f;
    ReplaceSelectionSplices(widened, "");
  }

  /** Control+X with a selection puts exactly the selected characters on the clipboard, then
      removes them and leaves the caret where they started. */
  lemma CutWithSelection(f: Field, input: Input)
    requires f.hasFocus && f.SelectionInValue() && f.selectionStart != f.cursorPosition && input.controlOnly
    ensures var g := f.KeyDown(X, input);
      && g.value == f.value[..f.SelectionLeft()] + f.value[f.SelectionRight()..]
      && g.selectionStart == g.cursorPosition == f.SelectionLeft()
      && g.events == f.events + [ClipboardSet(f.value[f.SelectionLeft()..f.SelectionRight()]), ValueChanged]
  {
    assert f.SelectionLeft() + f.SelectionLength() == f.SelectionRight();
    var clip := ClipboardSet(f.value[f.SelectionLeft()..f.SelectionRight()]);
    var copied := f.(events := f.events + [clip]);
    assert f.KeyDown(X, input) == f.Cut() == copied.ReplaceSelection("");
    ReplaceSelectionSplices(copied, "");
    var g := copied.ReplaceSelection("");
    assert |g.value| < |f.value|;
    assert g.events == copied.events + [ValueChanged];
  }

  /** Control+X without a selection puts the whole value on the clipboard first, then empties
      the field. */
  lemma CutWithoutSelection(f: Field)
    requires f.selectionStart == f.cursorPosition
    ensures f.Cut().value == ""
    ensures |f.Cut().events| > |f.events|
    ensures f.Cut().events[..|f.events| + 1] == f.events + [ClipboardSet(f.value)]
  {
    var selected := f.SelectAll();
    assert selected.SelectionLeft() == 0 && selected.SelectionLength() == |f.value|;
    assert selected.value[0..|f.value|] == f.value;
    var copied := selected.(events := f.events + [ClipboardSet(f.value)]);
    assert f.Cut() == copied.ReplaceSelection("");
    ReplaceSelectionSplices(copied, "");
    var g := copied.ReplaceSelection("");
    assert g.events[..|copied.events|] == copied.events;
  }

  /** Cutting leaves the field valid, and takes the whole value when nothing was selected. */
  lemma CutKeepsValid(f: Field)
    requires f.Valid()
    ensures f.Cut().Valid()
    ensures f.selectionStart == f.cursorPosition ==>
      && f.Cut().value == ""
      && |f.Cut().events| > |f.events|
      && f.Cut().events[..|f.events| + 1] == f.events + [ClipboardSet(f.value)]
  {
    var selected := if f.selectionStart == f.cursorPosition then f.SelectAll() else f;
    var left := selected.SelectionLeft();
    var copied := selected.(events := f.events + [ClipboardSet(selected.value[left..left + selected.SelectionLength()])]);
    ReplaceSelectionSplices(copied, "");
    if f.selectionStart == f.cursorPosition {
      CutWithoutSelection(f);
    }
  }

  lemma EditsKeepValid(f: Field, c: char, text: string)
    requires f.Valid()
    ensures f.KeyPress(c).Valid()
    ensures f.ReplaceSelection(text).Valid()
  {
    ReplaceSelectionSplices(f, [c]);
    ReplaceSelectionSplices(f, text);
  }

  lemma SettersKeepValid(f: Field, newValue: Option<string>, accept: bool)
    requires f.Valid()
    ensures f.Assign(newValue).Valid()
    ensures f.WithAcceptMultiline(accept).Valid()
  {
  }

  lemma PointerAndFocusKeepValid(f: Field, index: int, focus: bool)
    requires f.Valid()
    ensures f.SelectAll().Valid()
    ensures f.FocusChanged(focus).Valid()
    ensures 0 <= index <= |f.value| ==> f.ClickDown(index).Valid() && f.Drag(index).Valid()
  {
  }

  /** In a valid state every key can be handled, so the key-down handler's precondition holds
      in every state the invariant describes. */
  lemma ValidCanHandle(f: Field, key: Key, input: Input)
    requires f.Valid()
    ensures f.SelectionInValue() && f.CanHandle(key, input)
  {
  }

  // ---------------------------------------------------------------------------
  // The widget

  /** The text field widget, its fields updated in place by the handlers. Each method is
      specified by the `Field` transition of the same handler, about which the lemmas above
      are proved. */
  class Textbox {
    var value: string
    var selectionStart: int
    var cursorPosition: int
    var hasFocus: bool
    var hasCommitPending: bool
    var acceptMultiline: bool
    var enterCommits: bool
    /** The notifications fired, focus requests made and clipboard writes, in order. */
    var events: seq<Event>

    function State(): Field
      reads this
    {
      Field(value, selectionStart, cursorPosition, hasFocus, hasCommitPending, acceptMultiline, enterCommits, events)
    }

    /** A new field: empty, unfocused, single-line, Enter commits. */
    constructor ()
      ensures State() == Field("", 0, 0, false, false, false, true, [])
      ensures State().Valid()
    {
      value := "";
      selectionStart := 0;
      cursorPosition := 0;
      hasFocus := false;
      hasCommitPending := false;
      acceptMultiline := false;
      enterCommits := true;
      events := [];
    }

    function SelectionLeft(): (r: int)
      reads this
      ensures r == State().SelectionLeft()
    {
      Min(selectionStart, cursorPosition)
    }

    function SelectionRight(): (r: int)
      reads this
      ensures r == State().SelectionRight()
    {
      Max(selectionStart, cursorPosition)
    }

    function SelectionLength(): (r: nat)
      reads this
      ensures r == State().SelectionLength()
    {
      if cursorPosition - selectionStart >= 0 then cursorPosition - selectionStart else selectionStart - cursorPosition
    }

    method SetSelectionLeft(index: int)
      modifies this
      ensures State() == old(State()).WithSelectionLeft(index)
    {
      if selectionStart < cursorPosition {
        selectionStart := index;
      } else {
        cursorPosition := index;
      }
    }

    method SetSelectionRight(index: int)
      modifies this
      ensures State() == old(State()).WithSelectionRight(index)
    {
      if selectionStart > cursorPosition {
        selectionStart := index;
      } else {
        cursorPosition := index;
      }
    }

    method SetValueSilent(newValue: Option<string>)
      modifies this
      ensures State() == old(State()).StoreSilent(newValue)
    {
      value := OrEmpty(newValue);
      if selectionStart > |value| {
        selectionStart := |value|;
      }
      if cursorPosition > |value| {
        cursorPosition := |value|;
      }
    }

    /** The `Value` setter. */
    method SetValue(newValue: Option<string>)
      modifies this
      ensures State() == old(State()).Assign(newValue)
    {
      if newValue == Some(value) {
        return;
      }
      SetValueSilent(newValue);
      if hasFocus {
        hasCommitPending := true;
      }
      events := events + [ValueChanged];
      if !hasFocus {
        events := events + [ValueCommited];
      }
    }

    method SetAcceptMultiline(accept: bool)
      modifies this
      ensures State() == old(State()).WithAcceptMultiline(accept)
    {
      if acceptMultiline == accept {
        return;
      }
      acceptMultiline := accept;
      if !acceptMultiline {
        SetValue(Some(RemoveNewlines(value)));
      }
    }

    method SelectAll()
      modifies this
      ensures State() == old(State()).SelectAll()
    {
      selectionStart := 0;
      cursorPosition := |value|;
    }

    method ReplaceSelection(text: string)
      requires State().SelectionInValue()
      modifies this
      ensures State() == old(State()).ReplaceSelection(text)
    {
      ghost var before := State();
      var left := SelectionLeft();
      var right := SelectionRight();
      var newValue := value;
      if left != right {
        newValue := newValue[..left] + newValue[right..];
      }
      newValue := newValue[..left] + text + newValue[left..];
      assert newValue == value[..left] + text + value[right..];
      SetValue(Some(newValue));
      ghost var replaced := State();
      assert replaced == before.Assign(Some(before.value[..before.SelectionLeft()] + text + before.value[before.SelectionRight()..]));
      selectionStart := SelectionLeft() + |text|;
      cursorPosition := selectionStart;
      assert State() == replaced.(selectionStart := replaced.SelectionLeft() + |text|, cursorPosition := replaced.SelectionLeft() + |text|);
    }

    /** The focus-change handler, called by the widget manager. */
    method FocusChange(focus: bool)
      modifies this
      ensures State() == old(State()).FocusChanged(focus)
    {
      if hasFocus == focus {
        return;
      }
      if hasFocus && hasCommitPending {
        events := events + [ValueCommited];
        hasCommitPending := false;
      }
      hasFocus := focus;
    }

    /** The key-down handler; answers whether the key was taken. */
    method KeyDown(key: Key, input: Input) returns (handled: bool)
      requires hasFocus ==> State().CanHandle(key, input)
      modifies this
      ensures handled == old(hasFocus)
      ensures State() == old(State()).KeyDown(key, input)
    {
      if !hasFocus {
        return false;
      }
      match key {
        case Escape =>
          events := events + [FocusReleased];
        case BackSpace =>
          PressBackSpace();
        case Delete =>
          PressDelete();
        case A =>
          if input.controlOnly {
            SelectAll();
          }
        case C =>
          if input.controlOnly {
            Copy();
          }
        case V =>
          if input.controlOnly {
            var clipboardText := input.clipboardText;
            if !acceptMultiline {
              clipboardText := RemoveNewlines(clipboardText);
            }
            ReplaceSelection(clipboardText);
          }
        case X =>
          if input.controlOnly {
            Cut();
          }
        case Left =>
          PressLeft(input.shift);
        case Right =>
          PressRight(input.shift);
        case Up =>
          PlaceCaret(input.indexAbove, input.shift);
        case Down =>
          PlaceCaret(input.indexBelow, input.shift);
        case Home =>
          PlaceCaret(0, input.shift);
        case End =>
          PlaceCaret(|value|, input.shift);
        case Enter =>
          PressEnter(input.shift);
        case KeypadEnter =>
          PressEnter(input.shift);
        case Other =>
      }
      return true;
    }

    method PressBackSpace()
      requires State().SelectionInValue()
      modifies this
      ensures State() == old(State()).BackSpacePressed()
    {
      if selectionStart > 0 && selectionStart == cursorPosition {
        selectionStart := selectionStart - 1;
      }
      ReplaceSelection("");
    }

    method PressDelete()
      requires State().SelectionInValue()
      modifies this
      ensures State() == old(State()).DeletePressed()
    {
      if selectionStart < |value| && selectionStart == cursorPosition {
        cursorPosition := cursorPosition + 1;
      }
      ReplaceSelection("");
    }

    method Copy()
      requires selectionStart != cursorPosition ==> State().SelectionInValue()
      modifies this
      ensures State() == old(State()).Copied()
    {
      if selectionStart != cursorPosition {
        events := events + [ClipboardSet(value[SelectionLeft()..SelectionLeft() + SelectionLength()])];
      } else {
        events := events + [ClipboardSet(value)];
      }
    }

    method Cut()
      requires selectionStart != cursorPosition ==> State().SelectionInValue()
      modifies this
      ensures State() == old(State()).Cut()
    {
      if selectionStart == cursorPosition {
        SelectAll();
      }
      events := events + [ClipboardSet(value[SelectionLeft()..SelectionLeft() + SelectionLength()])];
      ReplaceSelection("");
    }

    method PressLeft(shift: bool)
      modifies this
      ensures State() == old(State()).LeftPressed(shift)
    {
      if shift {
        if cursorPosition > 0 {
          cursorPosition := cursorPosition - 1;
        }
      } else if selectionStart != cursorPosition {
        SetSelectionRight(SelectionLeft());
      } else if cursorPosition > 0 {
        selectionStart := selectionStart - 1;
        cursorPosition := selectionStart;
      }
    }

    method PressRight(shift: bool)
      modifies this
      ensures State() == old(State()).RightPressed(shift)
    {
      if shift {
        if cursorPosition < |value| {
          cursorPosition := cursorPosition + 1;
        }
      } else if selectionStart != cursorPosition {
        SetSelectionLeft(SelectionRight());
      } else if cursorPosition < |value| {
        cursorPosition := cursorPosition + 1;
        selectionStart := cursorPosition;
      }
    }

    /** Up, Down, Home and End: the caret moves to `index`, the anchor with it unless Shift is held. */
    method PlaceCaret(index: int, shift: bool)
      modifies this
      ensures State() == old(State()).MoveCaret(index, shift)
    {
      cursorPosition := index;
      if !shift {
        selectionStart := cursorPosition;
      }
    }

    method PressEnter(shift: bool)
      requires acceptMultiline && (!enterCommits || shift) ==> State().SelectionInValue()
      modifies this
      ensures State() == old(State()).EnterPressed(shift)
    {
      if acceptMultiline && (!enterCommits || shift) {
        ReplaceSelection("\n");
      } else if enterCommits && hasCommitPending {
        events := events + [ValueCommited];
        hasCommitPending := false;
      }
    }

    /** The key-press handler; answers whether the character was taken. */
    method KeyPress(c: char) returns (handled: bool)
      requires hasFocus ==> State().SelectionInValue()
      modifies this
      ensures handled == old(hasFocus)
      ensures State() == old(State()).KeyPress(c)
    {
      if !hasFocus {
        return false;
      }
      ReplaceSelection([c]);
      return true;
    }

    /** `index` is the character index the content label reports under the pointer. */
    method ClickDown(index: int) returns (handled: bool)
      modifies this
      ensures handled
      ensures State() == old(State()).ClickDown(index)
    {
      events := events + [FocusRequested];
      cursorPosition := index;
      selectionStart := cursorPosition;
      return true;
    }

    method Drag(index: int)
      modifies this
      ensures State() == old(State()).Drag(index)
    {
      cursorPosition := index;
    }
  }
}

=== FILE: wrappers.dfy ===
/** Small value types shared by the text layout and the text field. */
module Wrappers {

  /** A value that may be absent; in the text field it stands for a C# string that may be null. */
  datatype Option<+T> = None | Some(value: T)

  /** The outcome of an operation that the source ends by throwing an exception. */
  datatype Result<+T, +E> = Ok(value: T) | Err(error: E)

  function Min(a: int, b: int): (m: int)
    ensures m <= a && m <= b && (m == a || m == b)
  {
    if a <= b then a else b
  }

  function Max(a: int, b: int): (m: int)
    ensures a <= m && b <= m && (m == a || m == b)
  {
    if a >= b then a else b
  }
}
